=== FILE: README.md ===
# hugs notification core, in Dafny

This project models the core of `hugs`, Opsee's notification service. The core has two parts.

- **The Slack bot sender** (`SlackBotSender.Send` and `getSlackToken`) gets one subscription and one check-result event. It decides whether to post a message to Slack and which values the message template sees. It returns the first error it meets. Several steps talk to the outside world: reading the customer's OAuth record, the results service, the template render and parse, and Slack's `chat.postMessage`. Each of those outcomes is an input to `SlackBot.Send`. Its `Report` also lists which of those outbound steps were actually taken, in order.
- **The HTTP handlers** for subscriptions and the Slack integration. Each one is a pure transition from (user, request, state) to (status, body, new state). These handlers are `postNotifications`, `putNotificationsByCheckID`, `postNotificationsMultiCheck`, `deleteNotificationsByCheckID`, `deleteNotifications`, `getSlackToken` and `getSlackCode`, plus the two GET handlers the tests read through. Each store call a handler makes has its own `Fault` input, which says whether that call failed. Slack's answers are inputs too.

The store is a sequence of `Notification` rows (module `Store`). It follows the storage contract the handlers rely on:

- a write is an upsert by natural key (customer, check, type, value);
- a new row gets an id above every existing id;
- deletes go by natural key;
- every read is scoped to one customer.

The modules:

- `Obj` holds the shared data.
- `UrlEscape` models Go's `url.QueryEscape`, which is used to build the `json_url` link.
- `SlackBot` is the sender.
- `Store` and `StoreFacts` hold the store and its properties.
- `Service` and `ServiceFacts` hold the handlers and the properties that relate them.
- `Scenarios` states the repository's store tests and the HTTP test's request sequence for every store and row of the same shape as the tests' fixtures.

Some behaviours of the code are worth stating plainly, because a reader might expect otherwise.

- `putNotificationsByCheckID` replaces a check's subscriptions with two separate store calls, not one transaction: delete the check's rows, then write the request. If the write fails, the check is left empty and the reply is 500. `ServiceFacts.ReplaceFailureEmptiesCheck` states this.
- `postNotificationsMultiCheck` answers one entry per distinct check id. Go's map iteration makes their order random. The model fixes one order, first appearance.
- `postNotifications` still answers 201 when reading the check back fails. That failure is only logged, and the body then carries no rows.

## Model

| member | source | states |
|---|---|---|
| Obj.FailingResponses | notifier/slackbot.go:41 | the failing responses are exactly the responses that did not pass, each as many times as it occurs among the responses, and there are no more of them than responses |
| Obj.NoFailingIffAllPass | notifier/slackbot.go:41-50 | a result has no failing responses exactly when every response passed, which is what the first guard tests |
| SlackBot.TemplateKey | notifier/slackbot.go:33-36 | a failing result selects "check-failing" and only a failing one; any other selects "check-passing" |
| SlackBot.SlackToken | notifier/slackbot.go:124-143 | only the bot's access token leaves the record; a record without a bot gives the distinct integration_inactive error; a lookup error is passed through |
| SlackBot.Send | notifier/slackbot.go:30-122 | a failing result with no failing responses is rejected before any outbound step; a missing template is a silent no-op, and only that case is; the token is read first, and a failed read returns the store's error and a bot-less record returns integration_inactive, both with no further step; the results service is queried only for external hosts, and its error or a zero recount stops there with that error; a parse failure stops before the post with the parse error; a transport error or a reply Slack did not mark ok is returned as that error; a message is posted exactly when every guard passes; the template sees the result's ids and name, the bot token, the subscription's channel, and either the result's own counts with type "target" or the results service's counts with type "points-of-presence (PoPs)"; a delivered failing event never has fail count 0 |
| SlackBot.Post | notifier/slackbot.go:104-118 | a render that does not parse stops before the post; delivery happens exactly when Slack answers ok, and otherwise Slack's error string is returned |
| SlackBot.ReturnedError | notifier/slackbot.go:49-121 | Send's returned error is nil exactly when it posted or found no template; the texts of the non-nil errors are stated by SlackBot.SendFixedErrorTexts, SlackBot.SendLookupErrorTexts and SlackBot.SendPostErrorTexts |
| SlackBot.SendFixedErrorTexts | notifier/slackbot.go:48-97 | the first guard returns "Received failing CheckResult with no failing responses.", a bot-less record returns "integration_inactive", and a zero recount for an external host returns "Failing result, but fail count == 0" |
| SlackBot.SendLookupErrorTexts | notifier/slackbot.go:52-82 | a failed token read returns the store's own error text, and a failed results query for an external host returns the results service's own error text |
| SlackBot.SendPostErrorTexts | notifier/slackbot.go:104-118 | once the render is reached, a parse failure, a transport failure and Slack's refusal each return their own error text |
| SlackBot.SendNilExactly | notifier/slackbot.go:30-122 | Send returns nil exactly when every step passes and Slack answers ok, or when no template exists for the result's key |
| SlackBot.JsonUrl | notifier/slackbot.go:69-73 | the json_url value is the bare "?" exactly when the event carries no raw-results URL; otherwise it starts with "/event?json=" and ends with '&' |
| SlackBot.JsonUrlRoundTrip | notifier/slackbot.go:69-73 | the json_url value carries exactly the event's raw-results URL, which can be read back out of it, and is "?" exactly when there is no URL |
| SlackBot.SumFailing | notifier/slackbot.go:90-97 | the summed fail count is zero exactly when every result reports zero failures, and it is at least each result's count |
| SlackBot.SumFailingOne | notifier/slackbot.go:90-92 | the total over a single result is that result's failing count |
| SlackBot.SumFailingAppend | notifier/slackbot.go:90-92 | the total over two runs of results is the sum of their totals, so the total is the sum of every result's failing count |
| SlackBot.ExternalHostZeroCountsRejected | notifier/slackbot.go:75-97 | for an external host, a failing event whose results all report zero failures is rejected after the results query, even when its own responses show failures |
| SlackBot.ExternalHostRecount | notifier/slackbot.go:75-118 | for an external host, one result with a failure lets the event through; its fail count is at least that result's, and all three outbound steps are taken |
| SlackBot.TargetCountsBounded | notifier/slackbot.go:58-67 | for an ordinary target, a delivered message never reports more failures than instances |
| UrlEscape.HexDigit | notifier/slackbot.go:70 | the digit emitted for a nibble is a decimal digit or an upper-case 'A'-'F', and reads back as that nibble |
| UrlEscape.EscapeByte | notifier/slackbot.go:70 | an unreserved byte stays as it is, a space becomes '+', and any other byte becomes '%' and its two upper-case hex digits; the result is query-safe and unescapes to exactly that byte |
| UrlEscape.QueryUnescape | notifier/slackbot.go:70 | a decoded value is at most as long as its text and at least a third of it; text holding a character above one byte does not decode |
| UrlEscape.QueryEscape | notifier/slackbot.go:70 | the escaped URL holds only unreserved characters, '+' and '%', so it cannot end the query value it sits in; each byte takes one to three characters |
| UrlEscape.UnescapeEscapedByte | notifier/slackbot.go:70 | unescaping one escaped byte followed by anything yields that byte, followed by the unescaping of the rest |
| UrlEscape.QueryRoundTrip | notifier/slackbot.go:70 | unescaping an escaped byte string gives back that string |
| UrlEscape.EscapeInjective | notifier/slackbot.go:70 | distinct raw-results URLs give distinct links |
| UrlEscape.EscapeUnreservedIdentity | notifier/slackbot.go:70 | a URL made only of unreserved bytes is left unchanged |
| Store.ScopeFollowsKey | service/service.go:120-126 | rows with the same natural key fall in the same customer and check scopes |
| Store.Select | service/service.go:89 | a scoped read returns exactly the rows in scope, and no more rows than the store holds |
| Store.Remove | service/service.go:272 | clearing a scope keeps exactly the rows outside it |
| Store.RemoveKeys | service/service.go:210 | a delete by natural key keeps exactly the rows whose key is not named |
| Store.NextId | service/service.go:120 | a new row's id is above every id already in the store |
| Store.FindKey | service/service.go:120 | the lookup finds a row with the given natural key exactly when one exists |
| Store.Upsert | service/service.go:120 | writing a row adds its natural key to the keys present; an existing key keeps the row count and a new key adds one row, at the end under the next id; every existing row keeps its place, id and key; a row with another key is unchanged, and on a store without duplicate keys the row with the written key becomes the written row under its old id |
| Store.LastWrite | service/service.go:120 | the batch row a write leaves for a key is the last batch row with that key, and there is one exactly when the batch names the key |
| Store.PutNotifications | service/service.go:120 | after a batch write the keys present are the old keys plus the batch's keys, and the store does not shrink |
| Store.PutNotificationsMultiCheck | service/service.go:164 | one write of several groups adds the keys of every group's rows |
| Store.Flatten | service/service.go:164 | the rows of one multi-check write are exactly the rows of its groups |
| Store.GetNotificationsByUser | service/service.go:89 | the read returns exactly the caller's customer's rows |
| Store.GetNotificationsByCheckID | service/service.go:238 | the read returns exactly the caller's customer's rows for the check |
| Store.DeleteNotificationsByCheckId | service/service.go:272 | exactly the caller's customer's rows for the check are removed |
| Store.DeleteNotifications | service/service.go:543 | a row survives exactly when no request row has its natural key |
| Store.UpdateNotification | src/github.com/opsee/hugs/store/postgres_test.go:114-121 | the caller's customer's row with the given id is rewritten; every other row and every id is kept |
| Store.KeysOfCons | service/service.go:120 | the keys of a sequence are its head's key plus the keys of its tail |
| Store.KeysOfAppend | service/service.go:120 | appending a row adds exactly its key |
| Store.KeysOfUpdate | service/service.go:120 | overwriting a row with one of the same key keeps the key set |
| Store.KeysOfDistinctCount | service/service.go:120 | with no duplicate keys there are as many keys as rows |
| StoreFacts.UpsertWellFormed | service/service.go:120 | one write keeps ids unique and natural keys unique |
| StoreFacts.PutWellFormed | service/service.go:120 | a batch write keeps ids unique and natural keys unique |
| StoreFacts.PutCount | service/service.go:120 | after a batch write there is one row per distinct key of the old store and the batch |
| StoreFacts.PutKeepsPlace | service/service.go:120 | a batch write keeps every existing row in its place, with its id and natural key |
| StoreFacts.PutLeavesOther | service/service.go:120 | a row whose key the batch does not name was there before the write, unchanged |
| StoreFacts.PutLastWins | service/service.go:120 | on a well-formed store, a row whose key the batch names holds the batch's last row for that key, under the stored id |
| StoreFacts.PutRows | service/service.go:120 | the three row facts above, for every row of one write |
| StoreFacts.PutWrittenRow | service/service.go:120 | on a well-formed store, a row whose key the batch names is one of the batch's rows, under the stored id |
| StoreFacts.PutAgainAddsNothing | service/service.go:120 | on a well-formed store, writing the same batch a second time leaves the store exactly as the first write did |
| StoreFacts.SelectWellFormed | service/service.go:238 | a scoped read of a well-formed store has unique ids and unique keys |
| StoreFacts.RemoveWellFormed | service/service.go:272 | clearing a scope keeps ids and keys unique |
| StoreFacts.RemoveKeysWellFormed | service/service.go:543 | deleting by key keeps ids and keys unique |
| StoreFacts.ConsWellFormed | service/service.go:272 | a row put in front of a well-formed selection of the rows behind it keeps ids and keys unique |
| StoreFacts.SelectUpdateOutside | service/service.go:120 | overwriting a row outside a scope does not change that scope's read |
| StoreFacts.SelectAppendOutside | service/service.go:120 | appending a row outside a scope does not change that scope's read |
| StoreFacts.SelectAppendInside | service/service.go:120 | appending a row inside a scope adds exactly it to the end of that scope's read |
| StoreFacts.UpsertIsolation | service/service.go:120 | writing a row outside a scope leaves that scope's read unchanged |
| StoreFacts.PutIsolation | service/service.go:120 | writing a batch with no row in a scope leaves that scope's read unchanged |
| StoreFacts.RemoveIsolation | service/service.go:272 | clearing one scope leaves every disjoint scope's read unchanged |
| StoreFacts.RemoveClears | service/service.go:272 | after a scope is cleared it reads back empty |
| StoreFacts.RemoveKeysAgree | service/service.go:204-210 | deleting by key is clearing the scope when the keys named are exactly those of the rows in scope |
| StoreFacts.DeleteWhatWasRead | service/service.go:204-210 | deleting by key the rows a scoped read returned removes exactly that scope |
| StoreFacts.KeysOfCheck | service/service.go:238 | the keys a check's read returns are exactly the store's keys for that customer and check |
| StoreFacts.UpsertFresh | service/service.go:120 | a row with a new key is appended under the next id |
| StoreFacts.NextIdAppend | service/service.go:120 | appending a row moves the next id past that row's id and no further |
| StoreFacts.PutSplit | service/service.go:120 | writing a + b is writing a, then b |
| StoreFacts.SelectAll | service/service.go:89 | reading a scope every row is in returns the whole store |
| StoreFacts.PutOneFresh | src/github.com/opsee/hugs/store/postgres_test.go:69-78 | a single write of a new key appends it under the next id and adds its key |
| StoreFacts.NoneInScope | service/service.go:272 | a scope no row is in reads back empty, and clearing it changes nothing |
| StoreFacts.RemoveAppendInside | service/service.go:272 | clearing a scope from a store followed by rows all in that scope is clearing it from the store alone |
| StoreFacts.RemoveExtension | service/service.go:272 | a store with no row in a scope, extended by rows all in it, gives back the store when the scope is cleared |
| StoreFacts.PutKeepsOutside | service/service.go:271-288 | a write of rows of one scope leaves every row outside that scope as it was |
| StoreFacts.PutAppendedInScope | service/service.go:271-288 | every row a write appends lies in any scope that holds all the batch's rows |
| StoreFacts.PutIntoEmptyScope | service/service.go:271-288 | writing rows of one scope into a store with none of its rows only appends, so clearing the scope afterwards gives back the store |
| StoreFacts.RemoveKeysNone | service/service.go:543 | deleting keys no row carries changes nothing |
| Service.Stamp | service/service.go:113-118 | every incoming subscription gets the caller's customer and user and the given check; its id, type and value are kept |
| Service.KeysOfStamp | service/service.go:113-120 | the keys written are the request rows' type and value under the caller's customer and the given check |
| Service.GetNotifications | service/service.go:82-99 | a store error gives 400; otherwise 200 with exactly the caller's customer's rows; nothing is written |
| Service.PostNotifications | service/service.go:101-138 | a write error gives 400 with the state unchanged; otherwise 201, the keys gain exactly the stamped request's keys, and the body holds exactly the check's rows as stored, or no rows when that read failed |
| Service.Dedup | service/service.go:154-162 | each check id appears once, and the ids are exactly those of the request |
| Service.StampGroups | service/service.go:155-162 | each group keeps its check id and has its rows stamped with it |
| Service.KeysOfStampGroups | service/service.go:155-164 | the keys of a multi-check write are exactly each group row's type and value under the caller's customer and the group's check |
| Service.ReadBack | service/service.go:171-180 | one entry per check id, each holding exactly the customer's rows for that check, or none when its read failed |
| Service.PostNotificationsMultiCheck | service/service.go:141-184 | a write error gives 400 with the state unchanged; otherwise 200 with one entry per distinct requested check id, each holding exactly the customer's rows for that check in the new state; on success the keys present are exactly the old keys plus every group row's type and value under the caller's customer and the group's check |
| Service.DeleteNotificationsByCheckID | service/service.go:186-218 | an empty check id gives 400 "Must specify check_id in request."; a read error gives 400; a delete error gives 500; only a 200 changes the state, and then exactly the customer's rows for the check are gone |
| Service.GetNotificationsByCheckID | service/service.go:220-246 | an empty check id gives 400; a read error gives 500 carrying the store's error; 200 carries exactly the customer's rows for the check; nothing is written |
| Service.PutNotificationsByCheckID | service/service.go:248-290 | an empty check id gives 400; a delete error gives 500 with the state unchanged; a write error after the delete gives 500 and leaves the check cleared; 201 happens exactly when both calls succeed, echoes the stamped request, and leaves the keys of the cleared store plus the request's keys under the caller's customer and the check |
| Service.DeleteNotifications | service/service.go:517-551 | a request that fails validation gives 500; a store error gives 400; on 200 a row survives exactly when no request row, taken under the caller's customer, has its natural key |
| Service.GetSlackToken | service/service.go:377-404 | a read error gives 500; a missing record, a record without a bot or a token Slack rejects gives 404 integration_inactive; 200 happens exactly otherwise, and carries the stored record |
| Service.GetSlackCode | service/service.go:407-443 | an exchange error gives 400; a response Slack did not mark OK is returned with 200 and not stored; an OK response is stored for the caller's customer and returned with 200, unless the write fails (500, nothing stored); subscriptions are never touched |
| Service.NotifierLookup | notifier/slackbot.go:124-133 | the sender's token read fails with the store's own error, or yields the customer's stored record |
| ServiceFacts.ReplaceLeavesExactlyRequest | service/service.go:271-288 | after a successful replace the check's keys are exactly the request's keys under the caller's customer and the path's check |
| ServiceFacts.ReplaceTwiceSameKeys | service/service.go:271-288 | replacing twice with the same request leaves the check's keys as replacing once |
| ServiceFacts.ReplaceTwiceSameState | service/service.go:248-290 | a second identical PUT gives the same reply and leaves the whole state, ids included, as the first PUT left it |
| ServiceFacts.ReplaceIsolation | service/service.go:271-288 | a replace, finished or not, leaves every scope disjoint from the check as it was |
| ServiceFacts.ReplaceFailureEmptiesCheck | service/service.go:271-286 | when the write fails after the clear, the reply is 500, the check reads back empty and every row it had is gone |
| ServiceFacts.PostIsolation | service/service.go:113-124 | POST writes nothing visible to another customer |
| ServiceFacts.MultiCheckIsolation | service/service.go:155-168 | the multi-check POST writes nothing visible to another customer |
| ServiceFacts.MultiCheckStoresEveryGroup | service/service.go:155-164 | every subscription of every group is stored under its group's check and the caller's customer |
| ServiceFacts.DeleteIsolation | service/service.go:529-543 | DELETE /notifications never removes or adds another customer's row |
| ServiceFacts.DeleteByCheckClears | service/service.go:186-218 | after a successful delete of a check, a GET of it answers 200 with no rows, and every disjoint scope is unchanged |
| ServiceFacts.PostKeepsWellFormed | service/service.go:101-138 | POST /notifications keeps ids and natural keys unique, whatever the store faults |
| ServiceFacts.MultiCheckKeepsWellFormed | service/service.go:141-184 | POST /notifications-multicheck keeps ids and natural keys unique, whatever the store faults |
| ServiceFacts.ReplaceKeepsWellFormed | service/service.go:248-290 | PUT /notifications/:check_id keeps ids and natural keys unique, including when the write fails after the clear |
| ServiceFacts.DeleteByCheckKeepsWellFormed | service/service.go:186-218 | DELETE /notifications/:check_id keeps ids and natural keys unique |
| ServiceFacts.DeleteKeepsWellFormed | service/service.go:517-551 | DELETE /notifications keeps ids and natural keys unique |
| ServiceFacts.PostStampsUser | service/service.go:113-120 | every row POST /notifications stores for a request key is that request row with the caller's user id and customer and the posted check set, under the stored id |
| ServiceFacts.StampedGroupRow | service/service.go:155-162 | each row of a multi-check write is one group's request row with the caller's user id and customer and that group's check set |
| ServiceFacts.MultiCheckStampsUser | service/service.go:155-164 | every row the multi-check POST stores for a request key is a group's request row with the caller's user id and customer and that group's check set, under the stored id |
| ServiceFacts.ReplaceStampsUser | service/service.go:271-288 | after a 201 from PUT /notifications/:check_id, every row of the check is a request row with the caller's user id and customer and the check set, under the stored id |
| ServiceFacts.CodeThenToken | service/service.go:377-443 | once an OK exchange is stored, the token check answers 200 with that record when it has a bot Slack accepts, and 404 integration_inactive when it has no bot |
| ServiceFacts.RejectedCodeKeepsToken | service/service.go:432-441 | an exchange Slack did not mark OK changes nothing the token check sees |
| ServiceFacts.TokenHandlerAgreesWithSender | notifier/slackbot.go:124-143 | given a token Slack accepts, the token handler answers 404 exactly when the sender fails with integration_inactive, and 200 exactly when the sender gets a token |
| ServiceFacts.CodeWithoutBotStopsSend | notifier/slackbot.go:52-56 | after an OK exchange without a bot is stored for a customer, the sender, sending a subscription of that customer, stops at the token read with integration_inactive |
| Scenarios.PutOneKeys | src/github.com/opsee/hugs/store/postgres_test.go:69-78 | a single-row put adds exactly that row's natural key and keeps ids and keys unique |
| Scenarios.ThreePutsKeys | src/github.com/opsee/hugs/store/postgres_test.go:38-78 | after the three puts to an empty store the store holds exactly the three natural keys, with ids and keys unique |
| Scenarios.ThreeKeysRead | src/github.com/opsee/hugs/store/postgres_test.go:80-104 | any well-formed store holding one customer's three keys, two under one check, reads back 3 rows for the customer and 2 for the check |
| Scenarios.StoreTestPutAndRead | src/github.com/opsee/hugs/store/postgres_test.go:69-104 | with two rows under one check and one under another, the customer reads back 3 rows and the first check 2 |
| Scenarios.StoreTestUpdate | src/github.com/opsee/hugs/store/postgres_test.go:106-135 | rewriting each of the customer's rows by id to a new check leaves every row the customer reads under that check |
| Scenarios.DeleteHead | src/github.com/opsee/hugs/store/postgres_test.go:143-149 | deleting the first row's key removes that row and only it, when no later row shares the key |
| Scenarios.StoreTestDelete | src/github.com/opsee/hugs/store/postgres_test.go:137-159 | deleting each of three rows with distinct keys, one call per row, empties the store |
| Scenarios.HttpTestPostThenRead | service/http_test.go:216-270 | when the store holds only the fixture check's rows, a POST to any other check answers 201 (the test's POST names no check, so its row goes under the empty check), and a GET of the fixture's check then answers 200 with exactly the fixture's rows |
| Scenarios.HttpTestPutThenRead | service/http_test.go:272-328 | whatever the store holds, PUT of one row to a check answers 201 and leaves the check's old rows cleared and the row appended, stamped with the caller and the check, under the next id; a GET of the check then returns exactly that row |
| Scenarios.HttpTestPutThenDelete | service/http_test.go:272-342 | after the PUT to one check, a DELETE of another check answers 200; that other check then reads back empty, and the PUT's check still reads back exactly the row put |

## Left out

- Authentication, request decoding and the router: this covers CORS, the timeout, swagger, and the handlers' 401 and "unknown error" 400 paths. They happen before the handler logic and depend on the HTTP framework.
- Mustache rendering and the JSON parse of the rendered template are one input, `RenderOutcome`. This input is whether the rendered text parsed. The template texts come from a separate package.
- The results service (gRPC), Slack's `chat.postMessage`, `oauth.access` and `auth.test` are inputs: `ResultsReply`, `PostReply`, `Exchange`, and the `authTestOk` flag. They are network calls.
- The Postgres store and `store.NewPostgres` are left out. The store's SQL is not part of this model. The store is the abstract row sequence above, and each call's failure is a `Fault` input. The store test's single-row `PutNotification` and `DeleteNotification` are modelled as one-row batches.
- Service.NotifierLookup: requires a stored record when the read succeeds. The sender dereferences the record without a nil check, and what the store returns for a customer with no record is not part of this model.
- Logging, configuration and the debug render of the template are left out: they have no effect on results.
- `postSlackCode`, `getSlackChannels` and the `postSlackTest`, `postEmailTest` and `postWebHookTest` handlers are left out. So are the email and webhook senders. They are outside the subscription and Slack-bot core.
- `fmt.Errorf(slackError)` treats Slack's error string as a format string. The model returns the string unchanged. That differs only when the string contains '%' verbs.
- The order of the multi-check response is fixed to the first appearance of each check id. Go randomises it.
- Service.PutNotificationsByCheckID: the 201 body echoes the stamped request rows with their ids as sent. Whether the Postgres write assigns ids back into those rows is not part of this model.
- Store.PutNotifications: its own contract states the keys and the growth only. The row-by-row result on a well-formed store is stated by StoreFacts.PutRows and StoreFacts.PutAgainAddsNothing, whose proofs need the well-formedness facts of StoreFacts.
- Scenarios.HttpTestPutThenDelete: the two GETs after the DELETE are properties of the model; the HTTP test itself stops at the DELETE's 200.
- Service.DeleteNotifications: `Validate()` is the abstract `valid` flag, with the fixed error text "invalid notifications". The validation rules live in the `obj` package, which is not part of this model.
- `NewSlackBotSender` is left out. It parses the two templates and dials the results service. The model keeps only which template keys exist, as the `templates` set.

=== FILE: obj.dfy ===
/** Plain data shared by the sender and the HTTP handlers: notification
    subscriptions, the users that own them, check-result events and the stored
    Slack OAuth record. */
module Obj {

  datatype Option<+T> = None | Some(value: T)

  /** A value or the error a Go function would have returned instead. */
  datatype Result<+T, +E> = Ok(value: T) | Err(error: E)

  /** A byte of a Go string. */
  type byte = x: int | 0 <= x < 256

  /** One subscription row: `kind` is the channel type ("slack_bot", "email",
      "webhook", ... kept uninterpreted) and `value` its destination. */
  datatype Notification = Notification(
    id: nat,
    customerId: string,
    userId: int,
    checkId: string,
    kind: string,
    value: string)

  /** The natural key of a subscription: (customer_id, check_id, type, value). */
  datatype NaturalKey = NaturalKey(customerId: string, checkId: string, kind: string, value: string)

  function KeyOf(n: Notification): NaturalKey {
    NaturalKey(n.customerId, n.checkId, n.kind, n.value)
  }

  /** The authenticated caller. */
  datatype User = User(id: int, customerId: string)

  /** A check id together with the subscriptions for it (the request and
      response body `obj.Notifications`). */
  datatype Batch = Batch(checkId: string, notifications: seq<Notification>)

  datatype BotCreds = BotCreds(botUserId: string, botAccessToken: string)

  /** What Slack's oauth.access answered, stored whole per customer. */
  datatype OAuthResponse = OAuthResponse(
    ok: bool,
    error: string,
    accessToken: string,
    scope: string,
    teamName: string,
    teamId: string,
    bot: Option<BotCreds>)

  /** The outcome of a check against one instance of its target. */
  datatype CheckResponse = CheckResponse(target: string, passing: bool)

  /** `kind` is the target type, e.g. "external_host" or "sg". */
  datatype Target = Target(id: string, kind: string)

  datatype CheckResult = CheckResult(
    checkId: string,
    checkName: string,
    customerId: string,
    passing: bool,
    target: Target,
    responses: seq<CheckResponse>)

  /** Auxiliary payload carrying the URL of the raw JSON results dump. */
  datatype Nocap = Nocap(jsonUrl: seq<byte>)

  datatype Event = Event(result: CheckResult, nocap: Option<Nocap>)

  /** The subsequence of the result's responses that failed. */
  function FailingResponses(r: seq<CheckResponse>): (f: seq<CheckResponse>)
    ensures |f| <= |r|
    ensures forall x :: x in f <==> x in r && !x.passing
    ensures forall x :: multiset(f)[x] == if x.passing then 0 else multiset(r)[x]
  {
    if r == [] then []
    else
      assert r == [r[0]] + r[1..];
      assert multiset(r) == multiset([r[0]]) + multiset(r[1..]);
      if r[0].passing then FailingResponses(r[1..])
      else [r[0]] + FailingResponses(r[1..])
  }

  /** A result has no failing responses exactly when every response passed. */
  lemma NoFailingIffAllPass(r: seq<CheckResponse>)
    ensures FailingResponses(r) == [] <==> forall i :: 0 <= i < |r| ==> r[i].passing
  {
    if FailingResponses(r) == [] {
      forall i | 0 <= i < |r| ensures r[i].passing {
        assert r[i] in r;
      }
    } else {
      var x := FailingResponses(r)[0];
      assert x in FailingResponses(r);
      var i :| 0 <= i < |r| && r[i] == x;
    }
  }
}

=== FILE: scenarios.dfy ===
/** The repository's store and HTTP tests, stated for every input of their
    shape rather than for their fixtures alone: three puts then a read, an
    update, deletes one by one, and the POST / PUT / DELETE sequence. */
module Scenarios {
  import opened Obj
  import Store
  import StoreFacts
  import opened Service

  /** The natural keys of a one-row batch. */
  lemma KeysOfOne(n: Notification)
    ensures Store.KeysOf([n]) == {KeyOf(n)}
  {
    assert [n][0] == n;
  }

  /** A single-row put adds exactly the row's key and keeps ids and keys unique. */
  lemma PutOneKeys(s: Store.Store, n: Notification)
    requires Store.WellFormed(s)
    ensures Store.KeysOf(Store.PutNotifications(s, [n])) == Store.KeysOf(s) + {KeyOf(n)}
    ensures Store.WellFormed(Store.PutNotifications(s, [n]))
  {
    KeysOfOne(n);
    StoreFacts.PutWellFormed(s, [n]);
  }

  /** Three single-row puts to an empty store leave exactly the three keys, unique. */
  lemma ThreePutsKeys(a: Notification, b: Notification, c: Notification)
    ensures var s := Store.PutNotifications(Store.PutNotifications(Store.PutNotifications([], [a]), [b]), [c]);
      Store.KeysOf(s) == {KeyOf(a), KeyOf(b), KeyOf(c)} && Store.WellFormed(s)
  {
    var s0: Store.Store := [];
    assert Store.KeysOf(s0) == {};
    PutOneKeys(s0, a);
    var s1 := Store.PutNotifications(s0, [a]);
    PutOneKeys(s1, b);
    var s2 := Store.PutNotifications(s1, [b]);
    PutOneKeys(s2, c);
  }

  /** In a well-formed store, a read returns one row per natural key it finds. */
  lemma ReadCountIsKeyCount(s: Store.Store, sc: Store.Scope)
    requires Store.WellFormed(s)
    ensures |Store.Select(s, sc)| == |Store.KeysOf(Store.Select(s, sc))|
  {
    StoreFacts.SelectWellFormed(s, sc);
    Store.KeysOfDistinctCount(Store.Select(s, sc));
  }

  /** A well-formed store holding only three keys of one customer reads back three rows for it. */
  lemma ThreeKeysReadUser(u: User, s: Store.Store, a: Notification, b: Notification, c: Notification)
    requires a.customerId == u.customerId && b.customerId == u.customerId && c.customerId == u.customerId
    requires c.checkId != a.checkId && KeyOf(a) != KeyOf(b) && c.checkId != b.checkId
    requires Store.KeysOf(s) == {KeyOf(a), KeyOf(b), KeyOf(c)} && Store.WellFormed(s)
    ensures |Store.GetNotificationsByUser(s, u)| == 3
  {
    Store.KeysOfDistinctCount(s);
    forall i | 0 <= i < |s| ensures Store.InScope(s[i], Store.Customer(u.customerId)) {
      assert KeyOf(s[i]) in Store.KeysOf(s);
    }
    StoreFacts.SelectAll(s, Store.Customer(u.customerId));
  }

  /** The same store reads back two rows for the check holding two of the keys. */
  lemma ThreeKeysReadCheck(u: User, s: Store.Store, a: Notification, b: Notification, c: Notification)
    requires a.customerId == u.customerId && b.customerId == u.customerId
    requires a.checkId == b.checkId && c.checkId != a.checkId && KeyOf(a) != KeyOf(b)
    requires Store.KeysOf(s) == {KeyOf(a), KeyOf(b), KeyOf(c)} && Store.WellFormed(s)
    ensures |Store.GetNotificationsByCheckID(s, u, a.checkId)| == 2
  {
    var read := Store.Select(s, Store.Check(u.customerId, a.checkId));
    StoreFacts.KeysOfCheck(s, u.customerId, a.checkId);
    assert Store.KeysOf(read) == {KeyOf(a), KeyOf(b)};
    ReadCountIsKeyCount(s, Store.Check(u.customerId, a.checkId));
  }

  /** A well-formed store holding one customer's three keys, two under check
      `k` and one elsewhere: the customer reads three rows and `k` two. */
  lemma ThreeKeysRead(u: User, s: Store.Store, a: Notification, b: Notification, c: Notification)
    requires a.customerId == u.customerId && b.customerId == u.customerId && c.customerId == u.customerId
    requires a.checkId == b.checkId && c.checkId != a.checkId && KeyOf(a) != KeyOf(b)
    requires Store.KeysOf(s) == {KeyOf(a), KeyOf(b), KeyOf(c)} && Store.WellFormed(s)
    ensures |Store.GetNotificationsByUser(s, u)| == 3
    ensures |Store.GetNotificationsByCheckID(s, u, a.checkId)| == 2
  {
    ThreeKeysReadUser(u, s, a, b, c);
    ThreeKeysReadCheck(u, s, a, b, c);
  }

  /** The store test's three single-row puts for one customer, two under one
      check and one under another: the customer reads back three rows and the
      first check two. The counts follow from the natural keys alone. */
  lemma StoreTestPutAndRead(u: User, a: Notification, b: Notification, c: Notification)
    requires a.customerId == u.customerId && b.customerId == u.customerId && c.customerId == u.customerId
    requires a.checkId == b.checkId && c.checkId != a.checkId && KeyOf(a) != KeyOf(b)
    ensures var s := Store.PutNotifications(Store.PutNotifications(Store.PutNotifications([], [a]), [b]), [c]);
      && |Store.GetNotificationsByUser(s, u)| == 3
      && |Store.GetNotificationsByCheckID(s, u, a.checkId)| == 2
  {
    ThreePutsKeys(a, b, c);
    ThreeKeysRead(u, Store.PutNotifications(Store.PutNotifications(Store.PutNotifications([], [a]), [b]), [c]), a, b, c);
  }

  /** Rewriting, by id, the customer's row at position `j` to a row under
      check `k` moves that row to `k`, takes no row away from `k` and keeps
      every id and the customer's ownership. */
  lemma UpdateToCheck(s: Store.Store, u: User, n: Notification, j: nat, k: string)
    requires j < |s| && s[j].id == n.id && s[j].customerId == u.customerId && n.checkId == k
    ensures var r := Store.UpdateNotification(s, u, n);
      && |r| == |s|
      && r[j].checkId == k
      && (forall i :: 0 <= i < |s| ==> r[i].id == s[i].id)
      && (forall i :: 0 <= i < |s| && s[i].customerId == u.customerId ==> r[i].customerId == u.customerId)
      && (forall i :: 0 <= i < |s| && s[i].checkId == k ==> r[i].checkId == k)
  {
  }

  /** When every row is under check `k`, so is every row the customer reads. */
  lemma ReadUnderCheck(s: Store.Store, u: User, k: string)
    requires forall i :: 0 <= i < |s| ==> s[i].checkId == k
    ensures forall n :: n in Store.GetNotificationsByUser(s, u) ==> n.checkId == k
  {
    forall n | n in s ensures n.checkId == k {
      var i :| 0 <= i < |s| && s[i] == n;
    }
  }

  /** Rewriting each of a customer's three rows, by id, to check `k` leaves
      every row the customer reads back under `k`. */
  lemma StoreTestUpdate(u: User, s: Store.Store, k: string)
    requires |s| == 3
    requires forall i :: 0 <= i < 3 ==> s[i].customerId == u.customerId
    ensures var moved := Store.UpdateNotification(
                           Store.UpdateNotification(
                             Store.UpdateNotification(s, u, s[0].(checkId := k)),
                             u, s[1].(checkId := k)),
                           u, s[2].(checkId := k));
      forall n :: n in Store.GetNotificationsByUser(moved, u) ==> n.checkId == k
  {
    var m1 := Store.UpdateNotification(s, u, s[0].(checkId := k));
    UpdateToCheck(s, u, s[0].(checkId := k), 0, k);
    var m2 := Store.UpdateNotification(m1, u, s[1].(checkId := k));
    UpdateToCheck(m1, u, s[1].(checkId := k), 1, k);
    var m3 := Store.UpdateNotification(m2, u, s[2].(checkId := k));
    UpdateToCheck(m2, u, s[2].(checkId := k), 2, k);
    assert forall i :: 0 <= i < |m3| ==> m3[i].checkId == k;
    ReadUnderCheck(m3, u, k);
  }

  /** Deleting the first row's key removes it and only it when no later row shares the key. */
  lemma DeleteHead(s: Store.Store)
    requires s != []
    requires forall i :: 1 <= i < |s| ==> KeyOf(s[i]) != KeyOf(s[0])
    ensures Store.DeleteNotifications(s, [s[0]]) == s[1..]
  {
    var keys := Store.KeysOf([s[0]]);
    assert KeyOf([s[0]][0]) in keys;
    assert keys == {KeyOf(s[0])};
    StoreFacts.RemoveKeysNone(s[1..], keys);
  }

  /** Deleting each of three rows with distinct keys, one call per row, empties the store. */
  lemma StoreTestDelete(s: Store.Store)
    requires |s| == 3 && Store.KeysDistinct(s)
    ensures Store.DeleteNotifications(
              Store.DeleteNotifications(Store.DeleteNotifications(s, [s[0]]), [s[1]]),
              [s[2]]) == []
  {
    DeleteHead(s);
    var t := s[1..];
    assert t[0] == s[1] && t[1] == s[2];
    DeleteHead(t);
    assert t[1..] == [s[2]];
    DeleteHead([s[2]]);
  }

  /** POST to a check other than `k` leaves all of `k`'s rows readable. The
      HTTP test's POST carries no check id, so its row goes under the empty
      check, and the fixture's check "00000" then reads back exactly its rows. */
  lemma HttpTestPostThenRead(u: User, req: Batch, st: State, k: string)
    requires k != "" && k != req.checkId
    requires forall i :: 0 <= i < |st.notifications| ==>
      Store.InScope(st.notifications[i], Store.Check(u.customerId, k))
    ensures var r := PostNotifications(u, req, st, Succeeds, Succeeds);
      && r.status == StatusCreated
      && GetNotificationsByCheckID(u, k, r.state, Succeeds)
         == Reply(StatusOK, One(Batch("", st.notifications)), r.state)
  {
    var sc := Store.Check(u.customerId, k);
    StoreFacts.PutIsolation(st.notifications, Stamp(req.notifications, u, req.checkId), sc);
    StoreFacts.SelectAll(st.notifications, sc);
  }

  /** PUT of one subscription to check `k` answers 201: the check's old rows
      are gone, the row is appended stamped with the caller and the check under
      the next id of what is left, and the check then reads back exactly that row. */
  lemma HttpTestPutThenRead(u: User, k: string, row: Notification, st: State)
    requires k != ""
    ensures var cleared := Store.DeleteNotificationsByCheckId(st.notifications, u, k);
      var added := row.(customerId := u.customerId, userId := u.id, checkId := k, id := Store.NextId(cleared));
      var put := PutNotificationsByCheckID(u, k, Batch("", [row]), st, Succeeds, Succeeds);
      && put.status == StatusCreated
      && put.state.notifications == cleared + [added]
      && GetNotificationsByCheckID(u, k, put.state, Succeeds).body == One(Batch("", [added]))
  {
    var sc := Store.Check(u.customerId, k);
    var cleared := Store.DeleteNotificationsByCheckId(st.notifications, u, k);
    var stamped := row.(customerId := u.customerId, userId := u.id, checkId := k);
    var added := stamped.(id := Store.NextId(cleared));
    assert Stamp([row], u, k) == [stamped];
    StoreFacts.RemoveClears(st.notifications, sc);
    forall i | 0 <= i < |cleared| ensures KeyOf(cleared[i]) != KeyOf(stamped) {
      assert cleared[i] in cleared;
    }
    StoreFacts.PutOneFresh(cleared, stamped);
    StoreFacts.SelectAppendInside(cleared, added, sc);
  }

  /** The HTTP test's PUT to one check and DELETE of another (it puts to "666"
      and deletes "00002"): the PUT answers 201, the DELETE answers 200, the
      deleted check reads back empty and the PUT's row is still all its check reads back. */
  lemma HttpTestPutThenDelete(u: User, k: string, gone: string, row: Notification, st: State)
    requires k != "" && gone != "" && gone != k
    ensures var cleared := Store.DeleteNotificationsByCheckId(st.notifications, u, k);
      var added := row.(customerId := u.customerId, userId := u.id, checkId := k, id := Store.NextId(cleared));
      var put := PutNotificationsByCheckID(u, k, Batch("", [row]), st, Succeeds, Succeeds);
      var del := DeleteNotificationsByCheckID(u, gone, put.state, Succeeds, Succeeds);
      && put.status == StatusCreated
      && del.status == StatusOK
      && GetNotificationsByCheckID(u, gone, del.state, Succeeds).body == One(Batch("", []))
      && GetNotificationsByCheckID(u, k, del.state, Succeeds).body == One(Batch("", [added]))
  {
    HttpTestPutThenRead(u, k, row, st);
    var put := PutNotificationsByCheckID(u, k, Batch("", [row]), st, Succeeds, Succeeds);
    StoreFacts.RemoveClears(put.state.notifications, Store.Check(u.customerId, gone));
    StoreFacts.RemoveIsolation(put.state.notifications, Store.Check(u.customerId, gone), Store.Check(u.customerId, k));
  }
}

=== FILE: service.dfy ===
/** The HTTP handlers for subscriptions and the Slack integration, each a pure
    transition from (user, request, state) to (status, body, new state).

    Every store call the handler makes has its own `Fault` input saying whether
    that call failed; Slack's answers are inputs as well. Authentication and
    request decoding happen before these handlers and are not modelled. */
module Service {
  import opened Obj
  import Store
  import SlackBot
  import StoreFacts

  const StatusOK := 200
  const StatusCreated := 201
  const StatusBadRequest := 400
  const StatusNotFound := 404
  const StatusInternalServerError := 500

  const MissingCheckIdMessage := "Must specify check-id in request."
  const MissingCheckIdOnDeleteMessage := "Must specify check_id in request."

  /** Whether one store call went through, or the error it returned. */
  datatype Fault = Succeeds | Fails(message: string)

  /** Everything the handlers persist: subscription rows, and the Slack OAuth
      record of each customer. */
  datatype State = State(notifications: Store.Store, oauth: map<string, OAuthResponse>)

  datatype Body =
    | NoBody
    | One(batch: Batch)
    | Many(batches: seq<Batch>)
    | OAuth(record: OAuthResponse)
    | Error(message: string)

  datatype Reply = Reply(status: int, body: Body, state: State)

  /** Slack's oauth.access answer: a transport error or a response. */
  datatype Exchange = ExchangeFailed(message: string) | Exchanged(response: OAuthResponse)

  /** Gives each incoming subscription the caller's customer and user and the
      given check; type, value and id are the caller's. */
  function Stamp(ns: seq<Notification>, u: User, checkId: string): (r: seq<Notification>)
    ensures |r| == |ns|
    ensures forall i :: 0 <= i < |r| ==>
      && r[i].customerId == u.customerId && r[i].userId == u.id && r[i].checkId == checkId
      && r[i].id == ns[i].id && r[i].kind == ns[i].kind && r[i].value == ns[i].value
  {
    seq(|ns|, i requires 0 <= i < |ns| =>
      ns[i].(customerId := u.customerId, userId := u.id, checkId := checkId))
  }

  /** The key a request subscription is stored under once stamped. */
  function StampedKey(n: Notification, u: User, checkId: string): NaturalKey {
    NaturalKey(u.customerId, checkId, n.kind, n.value)
  }

  lemma KeysOfStamp(ns: seq<Notification>, u: User, checkId: string)
    ensures Store.KeysOf(Stamp(ns, u, checkId))
         == set i | 0 <= i < |ns| :: StampedKey(ns[i], u, checkId)
  {
    var r := Stamp(ns, u, checkId);
    assert forall i :: 0 <= i < |ns| ==> KeyOf(r[i]) == StampedKey(ns[i], u, checkId);
  }

  // ---------------------------------------------------------------------
  // Subscription handlers

  /** GET /notifications: the caller's customer's subscriptions. */
  function GetNotifications(u: User, st: State, read: Fault): (r: Reply)
    ensures r.state == st
    ensures read.Fails? ==> r.status == StatusBadRequest && r.body == Error(read.message)
    ensures read.Succeeds? ==>
      && r.status == StatusOK && r.body.One?
      && forall n :: n in r.body.batch.notifications <==>
           n in st.notifications && n.customerId == u.customerId
  {
    match read
    case Fails(m) => Reply(StatusBadRequest, Error(m), st)
    case Succeeds => Reply(StatusOK, One(Batch("", Store.GetNotificationsByUser(st.notifications, u))), st)
  }

  /** POST /notifications: stamp, upsert, then read the check back. The read's
      failure is logged only: the reply is still 201, with no rows. */
  function PostNotifications(u: User, req: Batch, st: State, put: Fault, read: Fault): (r: Reply)
    ensures r.state.oauth == st.oauth
    ensures put.Fails? ==> r == Reply(StatusBadRequest, Error(put.message), st)
    ensures put.Succeeds? ==> r.status == StatusCreated && r.body.One? && r.body.batch.checkId == req.checkId
    ensures put.Succeeds? ==>
      Store.KeysOf(r.state.notifications)
        == Store.KeysOf(st.notifications) + set i | 0 <= i < |req.notifications| :: StampedKey(req.notifications[i], u, req.checkId)
    ensures put.Succeeds? && read.Fails? ==> r.body.batch.notifications == []
    ensures put.Succeeds? && read.Succeeds? ==>
      forall n :: n in r.body.batch.notifications <==>
        n in r.state.notifications && n.customerId == u.customerId && n.checkId == req.checkId
  {
    var stamped := Stamp(req.notifications, u, req.checkId);
    match put
    case Fails(m) => Reply(StatusBadRequest, Error(m), st)
    case Succeeds =>
      var rows := Store.PutNotifications(st.notifications, stamped);
      KeysOfStamp(req.notifications, u, req.checkId);
      var result := if read.Fails? then [] else Store.GetNotificationsByCheckID(rows, u, req.checkId);
      Reply(StatusCreated, One(Batch(req.checkId, result)), st.(notifications := rows))
  }

  /** The check ids in first-appearance order, each once. */
  function Dedup(xs: seq<string>): (r: seq<string>)
    ensures forall i, j :: 0 <= i < j < |r| ==> r[i] != r[j]
    ensures forall x :: x in r <==> x in xs
  {
    if xs == [] then []
    else
      var r := Dedup(xs[..|xs| - 1]);
      assert forall x :: x in xs <==> x in xs[..|xs| - 1] || x == xs[|xs| - 1];
      if xs[|xs| - 1] in r then r else r + [xs[|xs| - 1]]
  }

  function CheckIds(groups: seq<Batch>): (ids: seq<string>)
    ensures |ids| == |groups|
    ensures forall i :: 0 <= i < |groups| ==> ids[i] == groups[i].checkId
  {
    seq(|groups|, i requires 0 <= i < |groups| => groups[i].checkId)
  }

  /** Each group's subscriptions stamped with the caller and the group's own check. */
  function StampGroups(groups: seq<Batch>, u: User): (r: seq<Batch>)
    ensures |r| == |groups|
    ensures forall i :: 0 <= i < |r| ==>
      r[i].checkId == groups[i].checkId && r[i].notifications == Stamp(groups[i].notifications, u, groups[i].checkId)
  {
    seq(|groups|, i requires 0 <= i < |groups| =>
      Batch(groups[i].checkId, Stamp(groups[i].notifications, u, groups[i].checkId)))
  }

  /** The keys of all groups once stamped: each row under its group's check. */
  lemma KeysOfStampGroups(groups: seq<Batch>, u: User)
    ensures Store.KeysOf(Store.Flatten(StampGroups(groups, u)))
         == set i, j | 0 <= i < |groups| && 0 <= j < |groups[i].notifications|
              :: StampedKey(groups[i].notifications[j], u, groups[i].checkId)
  {
    var stamped := StampGroups(groups, u);
    var all := Store.Flatten(stamped);
    var want := set i, j | 0 <= i < |groups| && 0 <= j < |groups[i].notifications|
                  :: StampedKey(groups[i].notifications[j], u, groups[i].checkId);
    forall k | k in Store.KeysOf(all) ensures k in want {
      var p :| 0 <= p < |all| && KeyOf(all[p]) == k;
      assert all[p] in all;
      var g :| g in stamped && all[p] in g.notifications;
      var i :| 0 <= i < |stamped| && stamped[i] == g;
      var j :| 0 <= j < |g.notifications| && g.notifications[j] == all[p];
      assert k == StampedKey(groups[i].notifications[j], u, groups[i].checkId);
    }
    forall i, j | 0 <= i < |groups| && 0 <= j < |groups[i].notifications|
      ensures StampedKey(groups[i].notifications[j], u, groups[i].checkId) in Store.KeysOf(all)
    {
      var n := stamped[i].notifications[j];
      assert stamped[i] in stamped && n in stamped[i].notifications;
      assert n in all;
      var p :| 0 <= p < |all| && all[p] == n;
      assert KeyOf(all[p]) == StampedKey(groups[i].notifications[j], u, groups[i].checkId);
    }
  }

  /** One entry per check id, holding the rows read back for it (none when that read failed). */
  function ReadBack(ids: seq<string>, rows: Store.Store, u: User, failedReads: set<string>): (out: seq<Batch>)
    ensures CheckIds(out) == ids
    ensures forall j :: 0 <= j < |out| ==>
      forall n :: n in out[j].notifications <==>
        ids[j] !in failedReads && n in rows && n.customerId == u.customerId && n.checkId == ids[j]
  {
    seq(|ids|, j requires 0 <= j < |ids| =>
      Batch(ids[j], if ids[j] in failedReads then [] else Store.GetNotificationsByCheckID(rows, u, ids[j])))
  }

  /** POST /notifications-multicheck: stamp every group, write all groups in one
      store call, then answer one entry per distinct check id. */
  function PostNotificationsMultiCheck(u: User, groups: seq<Batch>, st: State, put: Fault,
                                       failedReads: set<string>): (r: Reply)
    ensures r.state.oauth == st.oauth
    ensures put.Fails? ==> r == Reply(StatusBadRequest, Error(put.message), st)
    ensures put.Succeeds? ==> r.status == StatusOK && r.body.Many?
    ensures put.Succeeds? ==>
      var ids := CheckIds(r.body.batches);
      && (forall i, j :: 0 <= i < j < |ids| ==> ids[i] != ids[j])
      && (forall c :: c in ids <==> c in CheckIds(groups))
    ensures put.Succeeds? ==>
      var out := r.body.batches;
      forall j :: 0 <= j < |out| ==>
        forall n :: n in out[j].notifications <==>
          out[j].checkId !in failedReads && n in r.state.notifications
          && n.customerId == u.customerId && n.checkId == out[j].checkId
    ensures put.Succeeds? ==>
      Store.KeysOf(r.state.notifications)
        == Store.KeysOf(st.notifications)
           + set i, j | 0 <= i < |groups| && 0 <= j < |groups[i].notifications|
               :: StampedKey(groups[i].notifications[j], u, groups[i].checkId)
  {
    var stamped := StampGroups(groups, u);
    match put
    case Fails(m) => Reply(StatusBadRequest, Error(m), st)
    case Succeeds =>
      KeysOfStampGroups(groups, u);
      var rows := Store.PutNotificationsMultiCheck(st.notifications, stamped);
      var out := ReadBack(Dedup(CheckIds(groups)), rows, u, failedReads);
      Reply(StatusOK, Many(out), st.(notifications := rows))
  }

  /** DELETE /notifications/:check_id: read the check's rows, then delete them by key. */
  function DeleteNotificationsByCheckID(u: User, checkParam: string, st: State,
                                        read: Fault, del: Fault): (r: Reply)
    ensures r.state.oauth == st.oauth
    ensures checkParam == "" ==> r == Reply(StatusBadRequest, Error(MissingCheckIdOnDeleteMessage), st)
    ensures checkParam != "" && read.Fails? ==> r == Reply(StatusBadRequest, Error(read.message), st)
    ensures checkParam != "" && read.Succeeds? && del.Fails? ==>
      r == Reply(StatusInternalServerError, Error(del.message), st)
    ensures r.status == StatusOK <==> checkParam != "" && read.Succeeds? && del.Succeeds?
    ensures r.status == StatusOK ==>
      r.body == NoBody
      && r.state.notifications == Store.DeleteNotificationsByCheckId(st.notifications, u, checkParam)
  {
    if checkParam == "" then Reply(StatusBadRequest, Error(MissingCheckIdOnDeleteMessage), st)
    else match read
      case Fails(m) => Reply(StatusBadRequest, Error(m), st)
      case Succeeds =>
        var found := Store.GetNotificationsByCheckID(st.notifications, u, checkParam);
        match del
        case Fails(m) => Reply(StatusInternalServerError, Error(m), st)
        case Succeeds =>
          StoreFacts.DeleteWhatWasRead(st.notifications, Store.Check(u.customerId, checkParam));
          Reply(StatusOK, NoBody, st.(notifications := Store.DeleteNotifications(st.notifications, found)))
  }

  /** GET /notifications/:check_id. */
  function GetNotificationsByCheckID(u: User, checkParam: string, st: State, read: Fault): (r: Reply)
    ensures r.state == st
    ensures checkParam == "" ==> r.status == StatusBadRequest && r.body == Error(MissingCheckIdMessage)
    ensures checkParam != "" && read.Fails? ==>
      r.status == StatusInternalServerError && r.body == Error(read.message)
    ensures r.status == StatusOK <==> checkParam != "" && read.Succeeds?
    ensures r.status == StatusOK ==>
      && r.body.One?
      && forall n :: n in r.body.batch.notifications <==>
           n in st.notifications && n.customerId == u.customerId && n.checkId == checkParam
  {
    if checkParam == "" then Reply(StatusBadRequest, Error(MissingCheckIdMessage), st)
    else match read
      case Fails(m) => Reply(StatusInternalServerError, Error(m), st)
      case Succeeds =>
        Reply(StatusOK, One(Batch("", Store.GetNotificationsByCheckID(st.notifications, u, checkParam))), st)
  }

  /** PUT /notifications/:check_id: clear the check, then write the stamped
      request. These are two separate store calls, so a failing write after a
      successful clear leaves the check empty. */
  function PutNotificationsByCheckID(u: User, checkParam: string, req: Batch, st: State,
                                     del: Fault, put: Fault): (r: Reply)
    ensures r.state.oauth == st.oauth
    ensures checkParam == "" ==> r == Reply(StatusBadRequest, Error(MissingCheckIdMessage), st)
    ensures checkParam != "" && del.Fails? ==> r == Reply(StatusInternalServerError, Error(del.message), st)
    ensures checkParam != "" && del.Succeeds? && put.Fails? ==>
      && r.status == StatusInternalServerError
      && r.state.notifications == Store.DeleteNotificationsByCheckId(st.notifications, u, checkParam)
    ensures r.status == StatusCreated <==> checkParam != "" && del.Succeeds? && put.Succeeds?
    ensures r.status == StatusCreated ==>
      r.body == One(Batch(checkParam, Stamp(req.notifications, u, checkParam)))
    ensures r.status == StatusCreated ==>
      Store.KeysOf(r.state.notifications)
        == Store.KeysOf(Store.DeleteNotificationsByCheckId(st.notifications, u, checkParam))
           + set i | 0 <= i < |req.notifications| :: StampedKey(req.notifications[i], u, checkParam)
  {
    if checkParam == "" then Reply(StatusBadRequest, Error(MissingCheckIdMessage), st)
    else match del
      case Fails(m) => Reply(StatusInternalServerError, Error(m), st)
      case Succeeds =>
        var cleared := Store.DeleteNotificationsByCheckId(st.notifications, u, checkParam);
        var stamped := Stamp(req.notifications, u, checkParam);
        match put
        case Fails(m) => Reply(StatusInternalServerError, Error(m), st.(notifications := cleared))
        case Succeeds =>
          KeysOfStamp(req.notifications, u, checkParam);
          Reply(StatusCreated, One(Batch(checkParam, stamped)),
                st.(notifications := Store.PutNotifications(cleared, stamped)))
  }

  /** DELETE /notifications: stamp the caller onto each subscription, validate,
      and delete by natural key. */
  function DeleteNotifications(u: User, req: Batch, st: State, valid: bool, del: Fault): (r: Reply)
    ensures r.state.oauth == st.oauth
    ensures !valid ==> r.status == StatusInternalServerError && r.state == st
    ensures valid && del.Fails? ==> r == Reply(StatusBadRequest, Error(del.message), st)
    ensures r.status == StatusOK <==> valid && del.Succeeds?
    ensures r.status == StatusOK ==>
      forall n :: n in r.state.notifications <==>
        n in st.notifications
        && forall m :: m in req.notifications ==>
             NaturalKey(u.customerId, m.checkId, m.kind, m.value) != KeyOf(n)
  {
    var owned := seq(|req.notifications|, i requires 0 <= i < |req.notifications| =>
      req.notifications[i].(customerId := u.customerId, userId := u.id));
    if !valid then Reply(StatusInternalServerError, Error("invalid notifications"), st)
    else match del
      case Fails(m) => Reply(StatusBadRequest, Error(m), st)
      case Succeeds =>
        assert forall m :: m in req.notifications ==> exists o :: o in owned && KeyOf(o) == NaturalKey(u.customerId, m.checkId, m.kind, m.value) by {
          forall m | m in req.notifications
            ensures exists o :: o in owned && KeyOf(o) == NaturalKey(u.customerId, m.checkId, m.kind, m.value)
          {
            var i :| 0 <= i < |req.notifications| && req.notifications[i] == m;
            assert owned[i] in owned;
          }
        }
        Reply(StatusOK, NoBody, st.(notifications := Store.DeleteNotifications(st.notifications, owned)))
  }

  // ---------------------------------------------------------------------
  // Slack integration handlers

  /** GET /services/slack: the stored record, if it has a bot whose token Slack still accepts. */
  function GetSlackToken(u: User, st: State, read: Fault, authTestOk: bool): (r: Reply)
    ensures r.state == st
    ensures read.Fails? ==> r.status == StatusInternalServerError && r.body == Error(read.message)
    ensures read.Succeeds? && (u.customerId !in st.oauth || st.oauth[u.customerId].bot.None?) ==>
      r.status == StatusNotFound && r.body == Error(SlackBot.IntegrationInactiveMessage)
    ensures read.Succeeds? && u.customerId in st.oauth && st.oauth[u.customerId].bot.Some? && !authTestOk ==>
      r.status == StatusNotFound && r.body == Error(SlackBot.IntegrationInactiveMessage)
    ensures r.status == StatusOK <==>
      read.Succeeds? && u.customerId in st.oauth && st.oauth[u.customerId].bot.Some? && authTestOk
    ensures r.status == StatusOK ==> r.body == OAuth(st.oauth[u.customerId])
  {
    match read
    case Fails(m) => Reply(StatusInternalServerError, Error(m), st)
    case Succeeds =>
      if u.customerId !in st.oauth || st.oauth[u.customerId].bot.None? then
        Reply(StatusNotFound, Error(SlackBot.IntegrationInactiveMessage), st)
      else if !authTestOk then
        Reply(StatusNotFound, Error(SlackBot.IntegrationInactiveMessage), st)
      else
        Reply(StatusOK, OAuth(st.oauth[u.customerId]), st)
  }

  /** GET /services/slack/code: exchange the code, and store the answer only when Slack said OK. */
  function GetSlackCode(u: User, st: State, exchange: Exchange, put: Fault): (r: Reply)
    ensures r.state.notifications == st.notifications
    ensures exchange.ExchangeFailed? ==> r.status == StatusBadRequest && r.state == st
    ensures exchange.Exchanged? && !exchange.response.ok ==>
      r == Reply(StatusOK, OAuth(exchange.response), st)
    ensures exchange.Exchanged? && exchange.response.ok && put.Fails? ==>
      r.status == StatusInternalServerError && r.state == st
    ensures r.state != st ==> exchange.Exchanged? && exchange.response.ok && put.Succeeds?
    ensures exchange.Exchanged? && exchange.response.ok && put.Succeeds? ==>
      r == Reply(StatusOK, OAuth(exchange.response), st.(oauth := st.oauth[u.customerId := exchange.response]))
  {
    match exchange
    case ExchangeFailed(m) => Reply(StatusBadRequest, Error(m), st)
    case Exchanged(response) =>
      if response.ok then
        match put
        case Fails(m) => Reply(StatusInternalServerError, Error(m), st)
        case Succeeds =>
          Reply(StatusOK, OAuth(response), st.(oauth := st.oauth[u.customerId := response]))
      else Reply(StatusOK, OAuth(response), st)
  }

  /** The token lookup the sender performs against the same state. */
  function NotifierLookup(st: State, customerId: string, read: Fault): (l: SlackBot.TokenLookup)
    requires read.Fails? || customerId in st.oauth
    ensures read.Fails? ==> l == SlackBot.LookupFailed(read.message)
    ensures read.Succeeds? ==> l == SlackBot.Stored(st.oauth[customerId])
  {
    match read
    case Fails(m) => SlackBot.LookupFailed(m)
    case Succeeds => SlackBot.Stored(st.oauth[customerId])
  }
}

=== FILE: service_facts.dfy ===
/** Properties that relate the handlers to the store and to each other:
    replacing a check's subscriptions, tenant isolation, and the Slack
    credential flowing from the OAuth exchange to the token check and the sender. */
module ServiceFacts {
  import opened Obj
  import Store
  import StoreFacts
  import SlackBot
  import opened Service

  // ---------------------------------------------------------------------
  // PUT /notifications/:check_id

  /** After a successful replace the check holds exactly the request's
      subscriptions, keyed by the caller's customer and the path's check. */
  lemma ReplaceLeavesExactlyRequest(u: User, k: string, req: Batch, st: State)
    requires k != ""
    ensures var r := PutNotificationsByCheckID(u, k, req, st, Succeeds, Succeeds);
      && r.status == StatusCreated
      && Store.KeysOf(Store.GetNotificationsByCheckID(r.state.notifications, u, k))
         == set i | 0 <= i < |req.notifications| :: StampedKey(req.notifications[i], u, k)
  {
    var cleared := Store.DeleteNotificationsByCheckId(st.notifications, u, k);
    var stamped := Stamp(req.notifications, u, k);
    var after := Store.PutNotifications(cleared, stamped);
    KeysOfStamp(req.notifications, u, k);
    StoreFacts.KeysOfCheck(after, u.customerId, k);
    StoreFacts.KeysOfCheck(cleared, u.customerId, k);
    StoreFacts.RemoveClears(st.notifications, Store.Check(u.customerId, k));
    assert Store.KeysOf(Store.Select(cleared, Store.Check(u.customerId, k))) == {};
  }

  /** Replacing twice with the same request leaves the check as replacing once. */
  lemma ReplaceTwiceSameKeys(u: User, k: string, req: Batch, st: State)
    requires k != ""
    ensures var once := PutNotificationsByCheckID(u, k, req, st, Succeeds, Succeeds).state;
      var twice := PutNotificationsByCheckID(u, k, req, once, Succeeds, Succeeds).state;
      Store.KeysOf(Store.GetNotificationsByCheckID(twice.notifications, u, k))
      == Store.KeysOf(Store.GetNotificationsByCheckID(once.notifications, u, k))
  {
    var once := PutNotificationsByCheckID(u, k, req, st, Succeeds, Succeeds).state;
    ReplaceLeavesExactlyRequest(u, k, req, st);
    ReplaceLeavesExactlyRequest(u, k, req, once);
  }

  /** The replace is idempotent: a second identical PUT gives the same reply
      and leaves the whole state, ids included, as the first one left it. */
  lemma ReplaceTwiceSameState(u: User, k: string, req: Batch, st: State)
    requires k != ""
    ensures var once := PutNotificationsByCheckID(u, k, req, st, Succeeds, Succeeds);
      PutNotificationsByCheckID(u, k, req, once.state, Succeeds, Succeeds) == once
  {
    var sc := Store.Check(u.customerId, k);
    var cleared := Store.DeleteNotificationsByCheckId(st.notifications, u, k);
    forall i | 0 <= i < |cleared| ensures !Store.InScope(cleared[i], sc) {
      assert cleared[i] in cleared;
    }
    StoreFacts.PutIntoEmptyScope(cleared, Stamp(req.notifications, u, k), sc);
  }

  /** A replace, finished or not, leaves every scope outside the check as it was. */
  lemma ReplaceIsolation(u: User, k: string, req: Batch, st: State, del: Fault, put: Fault, sc: Store.Scope)
    requires StoreFacts.Disjoint(Store.Check(u.customerId, k), sc)
    ensures var r := PutNotificationsByCheckID(u, k, req, st, del, put);
      Store.Select(r.state.notifications, sc) == Store.Select(st.notifications, sc)
  {
    if k != "" && del.Succeeds? {
      var cleared := Store.DeleteNotificationsByCheckId(st.notifications, u, k);
      var stamped := Stamp(req.notifications, u, k);
      StoreFacts.RemoveIsolation(st.notifications, Store.Check(u.customerId, k), sc);
      if put.Succeeds? {
        StoreFacts.PutIsolation(cleared, stamped, sc);
      }
    }
  }

  /** The two store calls are not atomic: when the write fails after the clear,
      the reply is 500 and the check has lost every subscription it had. */
  lemma ReplaceFailureEmptiesCheck(u: User, k: string, req: Batch, st: State, m: string, lost: Notification)
    requires k != ""
    requires lost in st.notifications && lost.customerId == u.customerId && lost.checkId == k
    ensures var r := PutNotificationsByCheckID(u, k, req, st, Succeeds, Fails(m));
      && r.status == StatusInternalServerError
      && lost !in r.state.notifications
      && Store.GetNotificationsByCheckID(r.state.notifications, u, k) == []
  {
    StoreFacts.RemoveClears(st.notifications, Store.Check(u.customerId, k));
  }

  // ---------------------------------------------------------------------
  // Tenant isolation of the writing handlers

  /** POST /notifications writes only under the caller's customer. */
  lemma PostIsolation(u: User, req: Batch, st: State, put: Fault, read: Fault, other: string)
    requires other != u.customerId
    ensures var r := PostNotifications(u, req, st, put, read);
      Store.Select(r.state.notifications, Store.Customer(other))
      == Store.Select(st.notifications, Store.Customer(other))
  {
    if put.Succeeds? {
      StoreFacts.PutIsolation(st.notifications, Stamp(req.notifications, u, req.checkId), Store.Customer(other));
    }
  }

  /** POST /notifications-multicheck writes only under the caller's customer. */
  lemma MultiCheckIsolation(u: User, groups: seq<Batch>, st: State, put: Fault,
                            failedReads: set<string>, other: string)
    requires other != u.customerId
    ensures var r := PostNotificationsMultiCheck(u, groups, st, put, failedReads);
      Store.Select(r.state.notifications, Store.Customer(other))
      == Store.Select(st.notifications, Store.Customer(other))
  {
    if put.Succeeds? {
      var all := Store.Flatten(StampGroups(groups, u));
      forall i | 0 <= i < |all| ensures !Store.InScope(all[i], Store.Customer(other)) {
        assert all[i] in all;
        var g :| g in StampGroups(groups, u) && all[i] in g.notifications;
      }
      StoreFacts.PutIsolation(st.notifications, all, Store.Customer(other));
    }
  }

  /** Every subscription of every group is stored under its group's check. */
  lemma MultiCheckStoresEveryGroup(u: User, groups: seq<Batch>, st: State, failedReads: set<string>,
                                   i: nat, m: Notification)
    requires i < |groups| && m in groups[i].notifications
    ensures var r := PostNotificationsMultiCheck(u, groups, st, Succeeds, failedReads);
      StampedKey(m, u, groups[i].checkId) in Store.KeysOf(r.state.notifications)
  {
    var stamped := StampGroups(groups, u);
    var all := Store.Flatten(stamped);
    var j :| 0 <= j < |groups[i].notifications| && groups[i].notifications[j] == m;
    var n := stamped[i].notifications[j];
    assert KeyOf(n) == StampedKey(m, u, groups[i].checkId);
    assert n in all;
    var p :| 0 <= p < |all| && all[p] == n;
  }

  /** DELETE /notifications removes only the caller's customer's rows. */
  lemma DeleteIsolation(u: User, req: Batch, st: State, valid: bool, del: Fault, other: string, n: Notification)
    requires other != u.customerId && n.customerId == other
    ensures var r := DeleteNotifications(u, req, st, valid, del);
      n in r.state.notifications <==> n in st.notifications
  {
  }

  // ---------------------------------------------------------------------
  // DELETE /notifications/:check_id

  /** After a successful delete the check reads back empty and every scope
      outside it is as it was. */
  lemma DeleteByCheckClears(u: User, k: string, st: State, sc: Store.Scope)
    requires k != ""
    requires StoreFacts.Disjoint(Store.Check(u.customerId, k), sc)
    ensures var r := DeleteNotificationsByCheckID(u, k, st, Succeeds, Succeeds);
      && r.status == StatusOK
      && GetNotificationsByCheckID(u, k, r.state, Succeeds) == Reply(StatusOK, One(Batch("", [])), r.state)
      && Store.Select(r.state.notifications, sc) == Store.Select(st.notifications, sc)
  {
    StoreFacts.RemoveClears(st.notifications, Store.Check(u.customerId, k));
    StoreFacts.RemoveIsolation(st.notifications, Store.Check(u.customerId, k), sc);
  }

  // ---------------------------------------------------------------------
  // Every handler keeps ids and natural keys unique

  lemma PostKeepsWellFormed(u: User, st: State, req: Batch, put: Fault, read: Fault)
    requires Store.WellFormed(st.notifications)
    ensures Store.WellFormed(PostNotifications(u, req, st, put, read).state.notifications)
  {
    StoreFacts.PutWellFormed(st.notifications, Stamp(req.notifications, u, req.checkId));
  }

  lemma MultiCheckKeepsWellFormed(u: User, st: State, groups: seq<Batch>, put: Fault, failedReads: set<string>)
    requires Store.WellFormed(st.notifications)
    ensures Store.WellFormed(PostNotificationsMultiCheck(u, groups, st, put, failedReads).state.notifications)
  {
    StoreFacts.PutWellFormed(st.notifications, Store.Flatten(StampGroups(groups, u)));
  }

  lemma ReplaceKeepsWellFormed(u: User, st: State, req: Batch, k: string, del: Fault, put: Fault)
    requires Store.WellFormed(st.notifications)
    ensures Store.WellFormed(PutNotificationsByCheckID(u, k, req, st, del, put).state.notifications)
  {
    var cleared := Store.DeleteNotificationsByCheckId(st.notifications, u, k);
    StoreFacts.RemoveWellFormed(st.notifications, Store.Check(u.customerId, k));
    StoreFacts.PutWellFormed(cleared, Stamp(req.notifications, u, k));
  }

  lemma DeleteByCheckKeepsWellFormed(u: User, st: State, k: string, read: Fault, del: Fault)
    requires Store.WellFormed(st.notifications)
    ensures Store.WellFormed(DeleteNotificationsByCheckID(u, k, st, read, del).state.notifications)
  {
    StoreFacts.RemoveWellFormed(st.notifications, Store.Check(u.customerId, k));
  }

  lemma DeleteKeepsWellFormed(u: User, st: State, req: Batch, valid: bool, del: Fault)
    requires Store.WellFormed(st.notifications)
    ensures Store.WellFormed(DeleteNotifications(u, req, st, valid, del).state.notifications)
  {
    var owned := seq(|req.notifications|, i requires 0 <= i < |req.notifications| =>
      req.notifications[i].(customerId := u.customerId, userId := u.id));
    StoreFacts.RemoveKeysWellFormed(st.notifications, Store.KeysOf(owned));
  }

  // ---------------------------------------------------------------------
  // The rows the writing handlers store

  /** POST /notifications stores each request row stamped with the caller's
      user and customer and the posted check: a stored row whose key the
      request names is such a row, under the stored id. */
  lemma PostStampsUser(u: User, req: Batch, st: State, read: Fault)
    requires Store.WellFormed(st.notifications)
    ensures var rows := PostNotifications(u, req, st, Succeeds, read).state.notifications;
      forall n :: n in rows && KeyOf(n) in Store.KeysOf(Stamp(req.notifications, u, req.checkId)) ==>
        && n.userId == u.id
        && exists j :: 0 <= j < |req.notifications| && n == req.notifications[j].(
             customerId := u.customerId, userId := u.id, checkId := req.checkId, id := n.id)
  {
    var stamped := Stamp(req.notifications, u, req.checkId);
    var rows := Store.PutNotifications(st.notifications, stamped);
    forall n | n in rows && KeyOf(n) in Store.KeysOf(stamped)
      ensures exists j :: 0 <= j < |req.notifications| && n == req.notifications[j].(
                customerId := u.customerId, userId := u.id, checkId := req.checkId, id := n.id)
    {
      var p :| 0 <= p < |rows| && rows[p] == n;
      StoreFacts.PutWrittenRow(st.notifications, stamped, p);
      var j :| 0 <= j < |stamped| && n == stamped[j].(id := n.id);
      assert n == req.notifications[j].(
        customerId := u.customerId, userId := u.id, checkId := req.checkId, id := n.id);
    }
  }

  /** A row of a multi-check write is one group's request row, stamped with
      the caller and that group's check. */
  lemma StampedGroupRow(u: User, groups: seq<Batch>, q: nat)
    requires q < |Store.Flatten(StampGroups(groups, u))|
    ensures var x := Store.Flatten(StampGroups(groups, u))[q];
      exists i, j :: 0 <= i < |groups| && 0 <= j < |groups[i].notifications|
        && x == groups[i].notifications[j].(
             customerId := u.customerId, userId := u.id, checkId := groups[i].checkId)
  {
    var stamped := StampGroups(groups, u);
    var all := Store.Flatten(stamped);
    assert all[q] in all;
    var g :| g in stamped && all[q] in g.notifications;
    var i :| 0 <= i < |stamped| && stamped[i] == g;
    var j :| 0 <= j < |g.notifications| && g.notifications[j] == all[q];
    assert all[q] == groups[i].notifications[j].(
      customerId := u.customerId, userId := u.id, checkId := groups[i].checkId);
  }

  /** POST /notifications-multicheck stores each group's rows stamped with the
      caller's user and customer and the group's own check. */
  lemma MultiCheckStampsUser(u: User, groups: seq<Batch>, st: State, failedReads: set<string>)
    requires Store.WellFormed(st.notifications)
    ensures var rows := PostNotificationsMultiCheck(u, groups, st, Succeeds, failedReads).state.notifications;
      forall n :: n in rows && KeyOf(n) in Store.KeysOf(Store.Flatten(StampGroups(groups, u))) ==>
        && n.userId == u.id
        && exists i, j :: 0 <= i < |groups| && 0 <= j < |groups[i].notifications|
             && n == groups[i].notifications[j].(
                  customerId := u.customerId, userId := u.id, checkId := groups[i].checkId, id := n.id)
  {
    var all := Store.Flatten(StampGroups(groups, u));
    var rows := Store.PutNotifications(st.notifications, all);
    forall n | n in rows && KeyOf(n) in Store.KeysOf(all)
      ensures exists i, j :: 0 <= i < |groups| && 0 <= j < |groups[i].notifications|
                && n == groups[i].notifications[j].(
                     customerId := u.customerId, userId := u.id, checkId := groups[i].checkId, id := n.id)
    {
      var p :| 0 <= p < |rows| && rows[p] == n;
      StoreFacts.PutWrittenRow(st.notifications, all, p);
      var q :| 0 <= q < |all| && n == all[q].(id := n.id);
      StampedGroupRow(u, groups, q);
    }
  }

  /** After PUT /notifications/:check_id answers 201, every row of the check is
      a request row stamped with the caller's user and customer and the check. */
  lemma ReplaceStampsUser(u: User, k: string, req: Batch, st: State)
    requires k != "" && Store.WellFormed(st.notifications)
    ensures var r := PutNotificationsByCheckID(u, k, req, st, Succeeds, Succeeds);
      forall n :: n in r.state.notifications && n.customerId == u.customerId && n.checkId == k ==>
        && n.userId == u.id
        && exists j :: 0 <= j < |req.notifications| && n == req.notifications[j].(
             customerId := u.customerId, userId := u.id, checkId := k, id := n.id)
  {
    var cleared := Store.DeleteNotificationsByCheckId(st.notifications, u, k);
    var stamped := Stamp(req.notifications, u, k);
    var rows := Store.PutNotifications(cleared, stamped);
    StoreFacts.RemoveWellFormed(st.notifications, Store.Check(u.customerId, k));
    forall n | n in rows && n.customerId == u.customerId && n.checkId == k
      ensures exists j :: 0 <= j < |req.notifications| && n == req.notifications[j].(
                customerId := u.customerId, userId := u.id, checkId := k, id := n.id)
    {
      var p :| 0 <= p < |rows| && rows[p] == n;
      if KeyOf(n) !in Store.KeysOf(stamped) {
        StoreFacts.PutLeavesOther(cleared, stamped, p);
        assert false;
      }
      StoreFacts.PutWrittenRow(cleared, stamped, p);
      var j :| 0 <= j < |stamped| && n == stamped[j].(id := n.id);
      assert n == req.notifications[j].(
        customerId := u.customerId, userId := u.id, checkId := k, id := n.id);
    }
  }

  // ---------------------------------------------------------------------
  // The Slack credential from exchange to use

  /** Once an OK exchange is stored, the token check answers 200 with that
      record when it has a bot Slack accepts, and integration_inactive when it has none. */
  lemma CodeThenToken(u: User, st: State, resp: OAuthResponse)
    requires resp.ok
    ensures var after := GetSlackCode(u, st, Exchanged(resp), Succeeds).state;
      var r := GetSlackToken(u, after, Succeeds, true);
      && (resp.bot.Some? ==> r.status == StatusOK && r.body == OAuth(resp))
      && (resp.bot.None? ==>
            r.status == StatusNotFound && r.body == Error(SlackBot.IntegrationInactiveMessage))
  {
  }

  /** A response Slack did not mark OK changes nothing the token check sees. */
  lemma RejectedCodeKeepsToken(u: User, st: State, resp: OAuthResponse, read: Fault, authTestOk: bool, put: Fault)
    requires !resp.ok
    ensures var after := GetSlackCode(u, st, Exchanged(resp), put).state;
      GetSlackToken(u, after, read, authTestOk) == GetSlackToken(u, st, read, authTestOk)
  {
  }

  /** The token handler and the sender agree on a stored record: with a token
      Slack accepts, one answers integration_inactive exactly when the other does. */
  lemma TokenHandlerAgreesWithSender(u: User, st: State)
    requires u.customerId in st.oauth
    ensures var handler := GetSlackToken(u, st, Succeeds, true);
      var sender := SlackBot.SlackToken(NotifierLookup(st, u.customerId, Succeeds));
      && (handler.status == StatusNotFound <==> sender == Err(SlackBot.IntegrationInactive))
      && (handler.status == StatusOK <==> sender.Ok?)
  {
  }

  /** A bot-less record stored by the exchange makes the sender, reading the
      record of the subscription's customer, stop at the token with
      integration_inactive, before the results service or Slack. */
  lemma CodeWithoutBotStopsSend(u: User, st: State, resp: OAuthResponse, n: Notification, e: Event,
                                templates: set<string>, results: SlackBot.ResultsReply,
                                render: SlackBot.RenderOutcome, post: SlackBot.PostReply)
    requires resp.ok && resp.bot.None? && n.customerId == u.customerId
    requires SlackBot.Consistent(e.result) && SlackBot.TemplateKey(e.result.passing) in templates
    ensures var after := GetSlackCode(u, st, Exchanged(resp), Succeeds).state;
      SlackBot.Send(n, e, templates, NotifierLookup(after, n.customerId, Succeeds), results, render, post)
      == SlackBot.Report(SlackBot.Failed(SlackBot.IntegrationInactive), [SlackBot.TokenRead])
  {
  }
}

=== FILE: slackbot.dfy ===
/** The Slack bot sender: from one subscription and one check-result event,
    decide whether to post, derive the message content, and surface the first
    error met along the way.

    Everything the sender talks to is an input: the outcome of reading the
    customer's OAuth record, the results service's answer, whether the rendered
    template parsed as a post-message request, and Slack's reply. The returned
    report also lists which of those outbound steps the sender actually took. */
module SlackBot {
  import opened Obj
  import UrlEscape

  const CheckFailing := "check-failing"
  const CheckPassing := "check-passing"
  const ExternalHost := "external_host"
  const TargetLabel := "target"
  const PopsLabel := "points-of-presence (PoPs)"
  const IntegrationInactiveMessage := "integration_inactive"
  const NoFailingResponsesMessage := "Received failing CheckResult with no failing responses."
  const ZeroFailCountMessage := "Failing result, but fail count == 0"
  const JsonUrlPrefix := "/event?json="
  const NoJsonUrl := "?"

  /** The errors Send can return, by kind. */
  datatype SendError =
    | NoFailingResponses
    | TokenLookupFailed(message: string)
    | IntegrationInactive
    | ResultsFailed(message: string)
    | ZeroFailCount
    | RenderFailed(message: string)
    | PostFailed(message: string)
    | PostRejected(apiError: string)

  /** The text of the Go error value. */
  function ErrorText(e: SendError): string {
    match e
    case NoFailingResponses => NoFailingResponsesMessage
    case TokenLookupFailed(m) => m
    case IntegrationInactive => IntegrationInactiveMessage
    case ResultsFailed(m) => m
    case ZeroFailCount => ZeroFailCountMessage
    case RenderFailed(m) => m
    case PostFailed(m) => m
    case PostRejected(m) => m
  }

  /** What opening the store and reading the customer's OAuth record gave. The
      record itself is never nil here: the source dereferences it unchecked. */
  datatype TokenLookup = LookupFailed(message: string) | Stored(record: OAuthResponse)

  /** The results service's answer: an error, or each result's failing count. */
  datatype ResultsReply = ResultsError(message: string) | Results(failingCounts: seq<nat>)

  /** Whether the rendered template parsed as a post-message request. */
  datatype RenderOutcome = Rendered | Unparseable(message: string)

  /** Slack's answer to chat.postMessage. */
  datatype PostReply = TransportError(message: string) | Replied(ok: bool, error: string)

  /** The values handed to the message template. */
  datatype Content = Content(
    checkId: string,
    checkName: string,
    groupName: string,
    instanceCount: nat,
    failCount: nat,
    kind: string,
    token: string,
    channel: string,
    jsonUrl: string)

  /** The outbound steps, in the order the sender takes them. */
  datatype Call = TokenRead | ResultsQuery | PostMessage

  /** Delivered and NoTemplate both return nil in the source. */
  datatype Outcome = Delivered(content: Content) | NoTemplate | Failed(error: SendError)

  datatype Report = Report(outcome: Outcome, calls: seq<Call>)

  /** A failing event picks the failing template, any other the passing one. */
  function TemplateKey(passing: bool): (key: string)
    ensures key == CheckFailing <==> !passing
    ensures key == CheckPassing <==> passing
  {
    if passing then CheckPassing else CheckFailing
  }

  /** getSlackToken: only the bot's access token leaves the record, and a
      record without a bot is the distinct integration_inactive error. */
  function SlackToken(lookup: TokenLookup): (r: Result<string, SendError>)
    ensures r.Ok? <==> lookup.Stored? && lookup.record.bot.Some?
    ensures r.Ok? ==> r.value == lookup.record.bot.value.botAccessToken
    ensures lookup.Stored? && lookup.record.bot.None? ==> r == Err(IntegrationInactive)
    ensures lookup.LookupFailed? ==> r == Err(TokenLookupFailed(lookup.message))
  {
    match lookup
    case LookupFailed(m) => Err(TokenLookupFailed(m))
    case Stored(record) =>
      match record.bot
      case None => Err(IntegrationInactive)
      case Some(bot) => Ok(bot.botAccessToken)
  }

  /** The link to the raw results: a query fragment when a URL is present, "?" otherwise. */
  function JsonUrl(nocap: Option<Nocap>): (u: string)
    ensures u == NoJsonUrl <==> nocap.None? || nocap.value.jsonUrl == []
    ensures u != NoJsonUrl ==> JsonUrlPrefix <= u && u[|u| - 1] == '&'
  {
    if nocap.Some? && nocap.value.jsonUrl != [] then
      JsonUrlPrefix + UrlEscape.QueryEscape(nocap.value.jsonUrl) + "&"
    else NoJsonUrl
  }

  /** Reads the raw-results URL back out of a json_url value. */
  function LinkedJson(u: string): Option<seq<byte>> {
    if |u| > |JsonUrlPrefix| && u[..|JsonUrlPrefix|] == JsonUrlPrefix && u[|u| - 1] == '&' then
      UrlEscape.QueryUnescape(u[|JsonUrlPrefix|..|u| - 1])
    else None
  }

  /** json_url carries exactly the event's raw-results URL, and "?" exactly when there is none. */
  lemma JsonUrlRoundTrip(nocap: Option<Nocap>)
    ensures LinkedJson(JsonUrl(nocap))
         == if nocap.Some? && nocap.value.jsonUrl != [] then Some(nocap.value.jsonUrl) else None
    ensures JsonUrl(nocap) == NoJsonUrl <==> nocap.None? || nocap.value.jsonUrl == []
  {
    var u := JsonUrl(nocap);
    if nocap.Some? && nocap.value.jsonUrl != [] {
      var esc := UrlEscape.QueryEscape(nocap.value.jsonUrl);
      assert u[..|JsonUrlPrefix|] == JsonUrlPrefix;
      assert u[|JsonUrlPrefix|..|u| - 1] == esc;
      UrlEscape.QueryRoundTrip(nocap.value.jsonUrl);
    }
  }

  /** The total failing count over the results service's results: zero exactly
      when every result reports no failures, and at least each result's count. */
  function SumFailing(counts: seq<nat>): (total: nat)
    ensures total == 0 <==> forall i :: 0 <= i < |counts| ==> counts[i] == 0
    ensures forall i :: 0 <= i < |counts| ==> counts[i] <= total
  {
    if counts == [] then 0
    else
      var rest := SumFailing(counts[1..]);
      assert forall i :: 1 <= i < |counts| ==> counts[i] == counts[1..][i - 1];
      counts[0] + rest
  }

  /** One result's failing count is the whole total. */
  lemma SumFailingOne(c: nat)
    ensures SumFailing([c]) == c
  {
    assert [c][1..] == [];
  }

  /** The total over two runs of results is the sum of their totals. */
  lemma {:induction false} SumFailingAppend(a: seq<nat>, b: seq<nat>)
    ensures SumFailing(a + b) == SumFailing(a) + SumFailing(b)
    decreases |a|
  {
    if a == [] {
      assert a + b == b;
    } else {
      assert (a + b)[1..] == a[1..] + b;
      SumFailingAppend(a[1..], b);
    }
  }

  /** A failing event must name at least one failing response. */
  predicate Consistent(r: CheckResult) {
    r.passing || FailingResponses(r.responses) != []
  }

  /** The steps a send takes for a target before it renders the message. */
  function Before(target: Target): seq<Call> {
    if target.kind == ExternalHost then [TokenRead, ResultsQuery] else [TokenRead]
  }

  /** The steps a send may take for a target, in order. */
  function Plan(target: Target): seq<Call> {
    Before(target) + [PostMessage]
  }

  /** Both guards pass and a template exists for the key. */
  predicate PassesGuards(e: Event, templates: set<string>) {
    Consistent(e.result) && TemplateKey(e.result.passing) in templates
  }

  /** Every check before the render passes: the guards, the token, and for an
      external host the results service and its recount. */
  predicate ReachesRender(e: Event, templates: set<string>, lookup: TokenLookup, results: ResultsReply) {
    && PassesGuards(e, templates)
    && lookup.Stored? && lookup.record.bot.Some?
    && (e.result.target.kind == ExternalHost ==>
          results.Results? && (e.result.passing || SumFailing(results.failingCounts) != 0))
  }

  /** Every guard passes: the conditions under which a message is posted. */
  predicate Deliverable(e: Event, templates: set<string>, lookup: TokenLookup,
                        results: ResultsReply, render: RenderOutcome, post: PostReply)
  {
    && ReachesRender(e, templates, lookup, results)
    && render.Rendered?
    && post.Replied? && post.ok
  }

  /** SlackBotSender.Send. */
  function Send(n: Notification, e: Event, templates: set<string>, lookup: TokenLookup,
                results: ResultsReply, render: RenderOutcome, post: PostReply): (rep: Report)
    // guard 1: a failing result with no failing responses, before any outbound step
    ensures !Consistent(e.result) ==> rep == Report(Failed(NoFailingResponses), [])
    // guard 2: no template for the key is a silent no-op, again before any outbound step
    ensures Consistent(e.result) && TemplateKey(e.result.passing) !in templates ==>
      rep == Report(NoTemplate, [])
    // no template is the only silent path
    ensures rep.outcome.NoTemplate? <==> Consistent(e.result) && TemplateKey(e.result.passing) !in templates
    // the token is resolved first; its failure stops everything after it
    ensures |rep.calls| > 0 ==> rep.calls[0] == TokenRead
    ensures PassesGuards(e, templates) && lookup.LookupFailed? ==>
      rep == Report(Failed(TokenLookupFailed(lookup.message)), [TokenRead])
    ensures PassesGuards(e, templates) && lookup.Stored? && lookup.record.bot.None? ==>
      rep == Report(Failed(IntegrationInactive), [TokenRead])
    // for an external host the results service comes next: its error, or a
    // failing event it counts no failures for, stops the send
    ensures PassesGuards(e, templates) && lookup.Stored? && lookup.record.bot.Some?
            && e.result.target.kind == ExternalHost && results.ResultsError? ==>
      rep == Report(Failed(ResultsFailed(results.message)), [TokenRead, ResultsQuery])
    ensures PassesGuards(e, templates) && lookup.Stored? && lookup.record.bot.Some?
            && e.result.target.kind == ExternalHost && results.Results?
            && !e.result.passing && SumFailing(results.failingCounts) == 0 ==>
      rep == Report(Failed(ZeroFailCount), [TokenRead, ResultsQuery])
    // steps are taken in plan order, the results service only for external hosts
    ensures rep.calls <= Plan(e.result.target)
    ensures ResultsQuery in rep.calls ==> e.result.target.kind == ExternalHost
    // past every check: the render, then the post, each with its own error
    ensures ReachesRender(e, templates, lookup, results) && render.Unparseable? ==>
      rep == Report(Failed(RenderFailed(render.message)), Before(e.result.target))
    ensures ReachesRender(e, templates, lookup, results) && render.Rendered? ==>
      rep.calls == Plan(e.result.target)
    ensures ReachesRender(e, templates, lookup, results) && render.Rendered? && post.TransportError? ==>
      rep.outcome == Failed(PostFailed(post.message))
    ensures ReachesRender(e, templates, lookup, results) && render.Rendered? && post.Replied? && !post.ok ==>
      rep.outcome == Failed(PostRejected(post.error))
    // a message is posted exactly when every guard passes
    ensures rep.outcome.Delivered? <==> Deliverable(e, templates, lookup, results, render, post)
    ensures rep.outcome.Delivered? ==> PostMessage in rep.calls
    // what the template sees
    ensures rep.outcome.Delivered? ==>
      var c := rep.outcome.content;
      && c.checkId == e.result.checkId
      && c.checkName == e.result.checkName
      && c.groupName == e.result.target.id
      && c.channel == n.value
      && c.token == lookup.record.bot.value.botAccessToken
      && c.jsonUrl == JsonUrl(e.nocap)
      && (e.result.target.kind != ExternalHost ==>
            && c.instanceCount == |e.result.responses|
            && c.failCount == |FailingResponses(e.result.responses)|
            && c.kind == TargetLabel)
      && (e.result.target.kind == ExternalHost ==>
            && c.instanceCount == |results.failingCounts|
            && c.failCount == SumFailing(results.failingCounts)
            && c.kind == PopsLabel)
    // a failing event is never posted with a fail count of zero
    ensures rep.outcome.Delivered? && !e.result.passing ==> rep.outcome.content.failCount > 0
  {
    var result := e.result;
    var key := TemplateKey(result.passing);
    var failing := FailingResponses(result.responses);
    if |failing| < 1 && !result.passing then
      Report(Failed(NoFailingResponses), [])
    else if key !in templates then
      Report(NoTemplate, [])
    else match SlackToken(lookup)
      case Err(err) => Report(Failed(err), [TokenRead])
      case Ok(token) =>
        var content := Content(result.checkId, result.checkName, result.target.id,
                               |result.responses|, |failing|, TargetLabel, token, n.value,
                               JsonUrl(e.nocap));
        if result.target.kind == ExternalHost then
          match results
          case ResultsError(m) => Report(Failed(ResultsFailed(m)), [TokenRead, ResultsQuery])
          case Results(counts) =>
            var failCount := SumFailing(counts);
            if !result.passing && failCount == 0 then
              Report(Failed(ZeroFailCount), [TokenRead, ResultsQuery])
            else
              Post(content.(instanceCount := |counts|, failCount := failCount, kind := PopsLabel),
                   render, post, [TokenRead, ResultsQuery])
        else
          Post(content, render, post, [TokenRead])
  }

  /** Parse the rendered request, post it, and check Slack's reply. */
  function Post(content: Content, render: RenderOutcome, post: PostReply, calls: seq<Call>): (rep: Report)
    ensures rep.outcome.Delivered? <==> render.Rendered? && post.Replied? && post.ok
    ensures rep.outcome.Delivered? ==> rep.outcome.content == content
    ensures rep.outcome.Failed? || rep.outcome.Delivered?
    ensures !rep.outcome.Delivered? && render.Rendered? && post.Replied? ==>
      rep.outcome == Failed(PostRejected(post.error))
    ensures rep.calls == if render.Rendered? then calls + [PostMessage] else calls
  {
    match render
    case Unparseable(m) => Report(Failed(RenderFailed(m)), calls)
    case Rendered =>
      match post
      case TransportError(m) => Report(Failed(PostFailed(m)), calls + [PostMessage])
      case Replied(ok, err) =>
        if ok then Report(Delivered(content), calls + [PostMessage])
        else Report(Failed(PostRejected(err)), calls + [PostMessage])
  }

  /** Send returns nil exactly when it posted or had no template for the key. */
  function ReturnedError(rep: Report): (r: Option<string>)
    ensures r.None? <==> rep.outcome.Delivered? || rep.outcome.NoTemplate?
  {
    if rep.outcome.Failed? then Some(ErrorText(rep.outcome.error)) else None
  }

  /** For an external host the results service decides: a failing event whose
      results all report zero failures is rejected, whatever its own responses say. */
  lemma ExternalHostZeroCountsRejected(n: Notification, e: Event, templates: set<string>,
                                       lookup: TokenLookup, counts: seq<nat>,
                                       render: RenderOutcome, post: PostReply)
    requires !e.result.passing && e.result.target.kind == ExternalHost
    requires FailingResponses(e.result.responses) != []
    requires TemplateKey(false) in templates && lookup.Stored? && lookup.record.bot.Some?
    requires forall i :: 0 <= i < |counts| ==> counts[i] == 0
    ensures Send(n, e, templates, lookup, Results(counts), render, post)
         == Report(Failed(ZeroFailCount), [TokenRead, ResultsQuery])
  {
  }

  /** For an external host any result with a failure lets a failing event through
      the recount guard, and its count is at least that result's. */
  lemma ExternalHostRecount(n: Notification, e: Event, templates: set<string>,
                            lookup: TokenLookup, counts: seq<nat>, i: nat,
                            post: PostReply)
    requires e.result.target.kind == ExternalHost && Consistent(e.result)
    requires TemplateKey(e.result.passing) in templates && lookup.Stored? && lookup.record.bot.Some?
    requires i < |counts| && counts[i] > 0
    requires post.Replied? && post.ok
    ensures var rep := Send(n, e, templates, lookup, Results(counts), Rendered, post);
      && rep.outcome.Delivered?
      && rep.outcome.content.failCount >= counts[i]
      && rep.calls == [TokenRead, ResultsQuery, PostMessage]
  {
  }

  /** A delivered message for an ordinary target never claims more failures than instances. */
  lemma TargetCountsBounded(n: Notification, e: Event, templates: set<string>, lookup: TokenLookup,
                            results: ResultsReply, render: RenderOutcome, post: PostReply)
    requires e.result.target.kind != ExternalHost
    ensures var rep := Send(n, e, templates, lookup, results, render, post);
      rep.outcome.Delivered? ==> rep.outcome.content.failCount <= rep.outcome.content.instanceCount
  {
  }

  /** Send's error text for the fixed failures: the first guard, a bot-less
      record and a zero recount each return the source's fixed message. */
  lemma SendFixedErrorTexts(n: Notification, e: Event, templates: set<string>, lookup: TokenLookup,
                            results: ResultsReply, render: RenderOutcome, post: PostReply)
    ensures var err := ReturnedError(Send(n, e, templates, lookup, results, render, post));
      && (!Consistent(e.result) ==> err == Some("Received failing CheckResult with no failing responses."))
      && (PassesGuards(e, templates) && lookup.Stored? && lookup.record.bot.None? ==>
            err == Some("integration_inactive"))
      && (PassesGuards(e, templates) && lookup.Stored? && lookup.record.bot.Some?
          && e.result.target.kind == ExternalHost && results.Results?
          && !e.result.passing && SumFailing(results.failingCounts) == 0 ==>
            err == Some("Failing result, but fail count == 0"))
  {
  }

  /** Before the render, Send passes the failing step's own error text
      through: the store's, or the results service's. */
  lemma SendLookupErrorTexts(n: Notification, e: Event, templates: set<string>, lookup: TokenLookup,
                             results: ResultsReply, render: RenderOutcome, post: PostReply)
    ensures var err := ReturnedError(Send(n, e, templates, lookup, results, render, post));
      && (PassesGuards(e, templates) && lookup.LookupFailed? ==> err == Some(lookup.message))
      && (PassesGuards(e, templates) && lookup.Stored? && lookup.record.bot.Some?
          && e.result.target.kind == ExternalHost && results.ResultsError? ==>
            err == Some(results.message))
  {
  }

  /** From the render on, Send passes the failing step's own error text
      through: the parse's, the transport's, or Slack's error string. */
  lemma SendPostErrorTexts(n: Notification, e: Event, templates: set<string>, lookup: TokenLookup,
                           results: ResultsReply, render: RenderOutcome, post: PostReply)
    requires ReachesRender(e, templates, lookup, results)
    ensures var err := ReturnedError(Send(n, e, templates, lookup, results, render, post));
      && (render.Unparseable? ==> err == Some(render.message))
      && (render.Rendered? && post.TransportError? ==> err == Some(post.message))
      && (render.Rendered? && post.Replied? && !post.ok ==> err == Some(post.error))
  {
  }

  /** Send returns nil exactly when it posted, or when no template exists for the key. */
  lemma SendNilExactly(n: Notification, e: Event, templates: set<string>, lookup: TokenLookup,
                       results: ResultsReply, render: RenderOutcome, post: PostReply)
    ensures ReturnedError(Send(n, e, templates, lookup, results, render, post)).None? <==>
      Deliverable(e, templates, lookup, results, render, post)
      || (Consistent(e.result) && TemplateKey(e.result.passing) !in templates)
  {
  }
}

=== FILE: store.dfy ===
/** The notification store as a sequence of rows.

    The relational implementation is not part of this model; the operations
    below give the storage contract the handlers rely on: writes are upserts by
    natural key, new rows get a fresh surrogate id, deletes go by natural key,
    and every read is scoped to one customer. */
module Store {
  import opened Obj

  type Store = seq<Notification>

  /** Which rows a read or delete addresses: a whole tenant, or one check of it. */
  datatype Scope = Customer(customerId: string) | Check(customerId: string, checkId: string)

  predicate InScope(n: Notification, sc: Scope) {
    match sc
    case Customer(c) => n.customerId == c
    case Check(c, k) => n.customerId == c && n.checkId == k
  }

  /** Scopes look at the customer and check only, both part of the natural key. */
  lemma ScopeFollowsKey(x: Notification, y: Notification, sc: Scope)
    requires KeyOf(x) == KeyOf(y)
    ensures InScope(x, sc) == InScope(y, sc)
  {
  }

  /** The rows in scope, in store order. */
  function Select(s: Store, sc: Scope): (r: Store)
    ensures |r| <= |s|
    ensures forall n :: n in r <==> n in s && InScope(n, sc)
  {
    if s == [] then []
    else if InScope(s[0], sc) then [s[0]] + Select(s[1..], sc)
    else Select(s[1..], sc)
  }

  /** The rows outside the scope, in store order. */
  function Remove(s: Store, sc: Scope): (r: Store)
    ensures |r| <= |s|
    ensures forall n :: n in r <==> n in s && !InScope(n, sc)
  {
    if s == [] then []
    else if InScope(s[0], sc) then Remove(s[1..], sc)
    else [s[0]] + Remove(s[1..], sc)
  }

  function KeysOf(s: seq<Notification>): set<NaturalKey> {
    set i | 0 <= i < |s| :: KeyOf(s[i])
  }

  /** The rows whose natural key is not among `keys`, in store order. */
  function RemoveKeys(s: Store, keys: set<NaturalKey>): (r: Store)
    ensures |r| <= |s|
    ensures forall n :: n in r <==> n in s && KeyOf(n) !in keys
  {
    if s == [] then []
    else if KeyOf(s[0]) in keys then RemoveKeys(s[1..], keys)
    else [s[0]] + RemoveKeys(s[1..], keys)
  }

  predicate IdsDistinct(s: Store) {
    forall i, j :: 0 <= i < j < |s| ==> s[i].id != s[j].id
  }

  predicate KeysDistinct(s: Store) {
    forall i, j :: 0 <= i < j < |s| ==> KeyOf(s[i]) != KeyOf(s[j])
  }

  /** Surrogate ids and natural keys each identify at most one row. */
  predicate WellFormed(s: Store) {
    IdsDistinct(s) && KeysDistinct(s)
  }

  /** An id above every id in the store. */
  function NextId(s: Store): (id: nat)
    ensures forall i :: 0 <= i < |s| ==> s[i].id < id
  {
    if s == [] then 1
    else
      var before := NextId(s[..|s| - 1]);
      if s[|s| - 1].id < before then before else s[|s| - 1].id + 1
  }

  /** The position of the row carrying natural key `k`, if any. */
  function FindKey(s: Store, k: NaturalKey): (o: Option<nat>)
    ensures o.Some? ==> o.value < |s| && KeyOf(s[o.value]) == k
    ensures o.None? <==> k !in KeysOf(s)
  {
    if s == [] then None
    else if KeyOf(s[0]) == k then Some(0)
    else match FindKey(s[1..], k)
      case None => None
      case Some(i) => Some(i + 1)
  }

  /** Writes one row: a row with the same natural key is overwritten and keeps
      its id; otherwise the row is appended under a fresh id. */
  function Upsert(s: Store, n: Notification): (r: Store)
    ensures KeysOf(r) == KeysOf(s) + {KeyOf(n)}
    ensures KeyOf(n) in KeysOf(s) ==> |r| == |s|
    ensures KeyOf(n) !in KeysOf(s) ==> |r| == |s| + 1
    ensures exists i :: 0 <= i < |r| && r[i] == n.(id := r[i].id)
    // every existing row keeps its place, id and key; only a row with the written key changes
    ensures forall i :: 0 <= i < |s| ==> r[i].id == s[i].id && KeyOf(r[i]) == KeyOf(s[i])
    ensures forall i :: 0 <= i < |s| && KeyOf(s[i]) != KeyOf(n) ==> r[i] == s[i]
    ensures KeysDistinct(s) ==>
      forall i :: 0 <= i < |s| && KeyOf(s[i]) == KeyOf(n) ==> r[i] == n.(id := s[i].id)
    // a new key goes at the end, under the next id
    ensures |s| < |r| ==> r[|s|] == n.(id := NextId(s))
  {
    match FindKey(s, KeyOf(n))
    case Some(i) =>
      var r := s[i := n.(id := s[i].id)];
      KeysOfUpdate(s, i, r[i]);
      r
    case None =>
      var r := s + [n.(id := NextId(s))];
      KeysOfAppend(s, r[|s|]);
      r
  }

  /** The last row of a batch carrying natural key `k`: the one a batch write
      leaves behind for that key. */
  function LastWrite(batch: seq<Notification>, k: NaturalKey): (w: Option<Notification>)
    ensures w.Some? ==> KeyOf(w.value) == k && w.value in batch
    ensures w.None? <==> k !in KeysOf(batch)
    ensures w.Some? ==>
      exists i :: 0 <= i < |batch| && batch[i] == w.value && forall j :: i < j < |batch| ==> KeyOf(batch[j]) != k
  {
    if batch == [] then None
    else
      KeysOfCons(batch);
      var rest := batch[1..];
      match LastWrite(rest, k)
      case Some(x) =>
        var i :| 0 <= i < |rest| && rest[i] == x && forall j :: i < j < |rest| ==> KeyOf(rest[j]) != k;
        assert batch[i + 1] == x;
        assert forall j :: i + 1 < j < |batch| ==> batch[j] == rest[j - 1];
        Some(x)
      case None =>
        assert forall j :: 0 < j < |batch| ==> batch[j] == rest[j - 1] && KeyOf(rest[j - 1]) in KeysOf(rest);
        if KeyOf(batch[0]) == k then Some(batch[0]) else None
  }

  /** Writes a batch, one row after another (store.PutNotifications). */
  function PutNotifications(s: Store, batch: seq<Notification>): (r: Store)
    ensures KeysOf(r) == KeysOf(s) + KeysOf(batch)
    ensures |s| <= |r|
    decreases |batch|
  {
    if batch == [] then s
    else
      KeysOfCons(batch);
      PutNotifications(Upsert(s, batch[0]), batch[1..])
  }

  /** Writes several check groups as one call: all rows or none
      (store.PutNotificationsMultiCheck); the caller decides failure. */
  function PutNotificationsMultiCheck(s: Store, groups: seq<Batch>): (r: Store)
    ensures KeysOf(r) == KeysOf(s) + KeysOf(Flatten(groups))
  {
    PutNotifications(s, Flatten(groups))
  }

  function Flatten(groups: seq<Batch>): (all: seq<Notification>)
    ensures forall n :: n in all <==> exists g :: g in groups && n in g.notifications
  {
    if groups == [] then []
    else
      var rest := Flatten(groups[1..]);
      assert forall g :: g in groups <==> g == groups[0] || g in groups[1..];
      groups[0].notifications + rest
  }

  /** All subscriptions of the user's customer (store.GetNotificationsByUser). */
  function GetNotificationsByUser(s: Store, u: User): (r: Store)
    ensures forall n :: n in r <==> n in s && n.customerId == u.customerId
  {
    Select(s, Customer(u.customerId))
  }

  /** The user's customer's subscriptions to one check (store.GetNotificationsByCheckID). */
  function GetNotificationsByCheckID(s: Store, u: User, checkId: string): (r: Store)
    ensures forall n :: n in r <==> n in s && n.customerId == u.customerId && n.checkId == checkId
  {
    Select(s, Check(u.customerId, checkId))
  }

  /** Clears one check of the user's customer (store.DeleteNotificationsByCheckId). */
  function DeleteNotificationsByCheckId(s: Store, u: User, checkId: string): (r: Store)
    ensures forall n :: n in r <==> n in s && !(n.customerId == u.customerId && n.checkId == checkId)
  {
    Remove(s, Check(u.customerId, checkId))
  }

  /** Deletes by natural key; keys with no row are ignored (store.DeleteNotifications). */
  function DeleteNotifications(s: Store, ns: seq<Notification>): (r: Store)
    ensures forall n :: n in r <==> n in s && forall m :: m in ns ==> KeyOf(m) != KeyOf(n)
  {
    var r := RemoveKeys(s, KeysOf(ns));
    assert forall n :: KeyOf(n) in KeysOf(ns) <==> exists m :: m in ns && KeyOf(m) == KeyOf(n) by {
      forall n | KeyOf(n) in KeysOf(ns) ensures exists m :: m in ns && KeyOf(m) == KeyOf(n) {
        var i :| 0 <= i < |ns| && KeyOf(ns[i]) == KeyOf(n);
        assert ns[i] in ns;
      }
      forall n, m | m in ns && KeyOf(m) == KeyOf(n) ensures KeyOf(n) in KeysOf(ns) {
        var i :| 0 <= i < |ns| && ns[i] == m;
      }
    }
    r
  }

  /** Rewrites the user's customer's row with id `n.id` (store.UpdateNotification). */
  function UpdateNotification(s: Store, u: User, n: Notification): (r: Store)
    ensures |r| == |s|
    ensures forall i :: 0 <= i < |s| ==> r[i].id == s[i].id
    ensures forall i :: 0 <= i < |s| && s[i].id == n.id && s[i].customerId == u.customerId ==>
      r[i] == n.(customerId := u.customerId)
    ensures forall i :: 0 <= i < |s| && (s[i].id != n.id || s[i].customerId != u.customerId) ==>
      r[i] == s[i]
  {
    if s == [] then []
    else
      var head := if s[0].id == n.id && s[0].customerId == u.customerId
        then n.(customerId := u.customerId) else s[0];
      [head] + UpdateNotification(s[1..], u, n)
  }

  // ---------------------------------------------------------------------
  // Facts about KeysOf

  lemma KeysOfCons(s: seq<Notification>)
    requires s != []
    ensures KeysOf(s) == {KeyOf(s[0])} + KeysOf(s[1..])
  {
    forall k | k in KeysOf(s) ensures k in {KeyOf(s[0])} + KeysOf(s[1..]) {
      var i :| 0 <= i < |s| && KeyOf(s[i]) == k;
      if i > 0 {
        assert KeyOf(s[1..][i - 1]) == k;
      }
    }
    forall k | k in KeysOf(s[1..]) ensures k in KeysOf(s) {
      var i :| 0 <= i < |s[1..]| && KeyOf(s[1..][i]) == k;
      assert KeyOf(s[i + 1]) == k;
    }
  }

  lemma KeysOfAppend(s: seq<Notification>, x: Notification)
    ensures KeysOf(s + [x]) == KeysOf(s) + {KeyOf(x)}
  {
    var t := s + [x];
    forall k | k in KeysOf(t) ensures k in KeysOf(s) + {KeyOf(x)} {
      var i :| 0 <= i < |t| && KeyOf(t[i]) == k;
      if i < |s| {
        assert KeyOf(s[i]) == k;
      }
    }
    assert KeyOf(t[|s|]) == KeyOf(x);
    forall k | k in KeysOf(s) ensures k in KeysOf(t) {
      var i :| 0 <= i < |s| && KeyOf(s[i]) == k;
      assert KeyOf(t[i]) == k;
    }
  }

  lemma KeysOfUpdate(s: seq<Notification>, i: nat, x: Notification)
    requires i < |s| && KeyOf(x) == KeyOf(s[i])
    ensures KeysOf(s[i := x]) == KeysOf(s)
  {
    var t := s[i := x];
    forall k | k in KeysOf(t) ensures k in KeysOf(s) {
      var j :| 0 <= j < |t| && KeyOf(t[j]) == k;
      assert KeyOf(s[j]) == k;
    }
    forall k | k in KeysOf(s) ensures k in KeysOf(t) {
      var j :| 0 <= j < |s| && KeyOf(s[j]) == k;
      assert KeyOf(t[j]) == k;
    }
  }

  /** The natural keys of a store without duplicate keys number as many as its rows. */
  lemma {:induction false} KeysOfDistinctCount(s: Store)
    requires KeysDistinct(s)
    ensures |KeysOf(s)| == |s|
  {
    if s != [] {
      KeysOfCons(s);
      KeysOfDistinctCount(s[1..]);
      forall j | 0 <= j < |s[1..]| ensures KeyOf(s[1..][j]) != KeyOf(s[0]) {
        assert s[1..][j] == s[j + 1];
      }
      assert KeyOf(s[0]) !in KeysOf(s[1..]);
    }
  }
}

=== FILE: store_facts.dfy ===
/** Properties of the notification store: writes keep ids and natural keys
    unique, every operation leaves other tenants and other checks alone, and
    reading a check's rows and deleting them by key clears exactly that check. */
module StoreFacts {
  import opened Obj
  import opened Store

  // ---------------------------------------------------------------------
  // Uniqueness of ids and natural keys

  lemma UpsertWellFormed(s: Store, n: Notification)
    requires WellFormed(s)
    ensures WellFormed(Upsert(s, n))
  {
    var r := Upsert(s, n);
    match FindKey(s, KeyOf(n))
    case Some(i) =>
      assert forall j :: 0 <= j < |r| ==> r[j].id == s[j].id && KeyOf(r[j]) == KeyOf(s[j]);
    case None =>
      assert r == s + [n.(id := NextId(s))];
      forall j | 0 <= j < |s| ensures KeyOf(s[j]) != KeyOf(n) {
        assert KeyOf(s[j]) in KeysOf(s);
      }
  }

  /** Writing a batch never creates two rows with the same id or the same natural key. */
  lemma {:induction false} PutWellFormed(s: Store, batch: seq<Notification>)
    requires WellFormed(s)
    ensures WellFormed(PutNotifications(s, batch))
    decreases |batch|
  {
    if batch != [] {
      UpsertWellFormed(s, batch[0]);
      PutWellFormed(Upsert(s, batch[0]), batch[1..]);
    }
  }

  /** On a well-formed store a batch adds one row per natural key it did not have. */
  lemma PutCount(s: Store, batch: seq<Notification>)
    requires WellFormed(s)
    ensures |PutNotifications(s, batch)| == |KeysOf(s) + KeysOf(batch)|
  {
    PutWellFormed(s, batch);
    KeysOfDistinctCount(PutNotifications(s, batch));
  }

  /** A batch write keeps an existing row in its place, with its id and key. */
  lemma {:induction false} PutKeepsPlace(s: Store, batch: seq<Notification>, i: nat)
    requires i < |s|
    ensures i < |PutNotifications(s, batch)|
    ensures PutNotifications(s, batch)[i].id == s[i].id
    ensures KeyOf(PutNotifications(s, batch)[i]) == KeyOf(s[i])
    decreases |batch|
  {
    if batch != [] {
      PutKeepsPlace(Upsert(s, batch[0]), batch[1..], i);
    }
  }

  /** A row of a single write whose key is not the written one was there before, untouched. */
  lemma UpsertLeavesOther(s: Store, n: Notification, i: nat)
    requires i < |Upsert(s, n)| && KeyOf(Upsert(s, n)[i]) != KeyOf(n)
    ensures i < |s| && Upsert(s, n)[i] == s[i]
  {
  }

  /** A row whose key a batch write does not name was there before, untouched. */
  lemma {:induction false} PutLeavesOther(s: Store, batch: seq<Notification>, i: nat)
    requires i < |PutNotifications(s, batch)|
    requires KeyOf(PutNotifications(s, batch)[i]) !in KeysOf(batch)
    ensures i < |s| && PutNotifications(s, batch)[i] == s[i]
    decreases |batch|
  {
    if batch != [] {
      var b := batch[0];
      var s1 := Upsert(s, b);
      assert PutNotifications(s, batch) == PutNotifications(s1, batch[1..]);
      KeysOfCons(batch);
      PutLeavesOther(s1, batch[1..], i);
      UpsertLeavesOther(s, b, i);
    }
  }

  /** On a well-formed store, a row whose key a batch write names holds the
      batch's last row for that key, under the stored id. */
  lemma {:induction false} PutLastWins(s: Store, batch: seq<Notification>, i: nat)
    requires WellFormed(s)
    requires i < |PutNotifications(s, batch)|
    requires KeyOf(PutNotifications(s, batch)[i]) in KeysOf(batch)
    ensures var x := PutNotifications(s, batch)[i];
      LastWrite(batch, KeyOf(x)) == Some(x.(id := LastWrite(batch, KeyOf(x)).value.id))
    decreases |batch|
  {
    var b := batch[0];
    var rest := batch[1..];
    var s1 := Upsert(s, b);
    var x := PutNotifications(s, batch)[i];
    assert x == PutNotifications(s1, rest)[i];
    UpsertWellFormed(s, b);
    KeysOfCons(batch);
    if KeyOf(x) in KeysOf(rest) {
      PutLastWins(s1, rest, i);
    } else {
      PutLeavesOther(s1, rest, i);
      assert KeyOf(x) == KeyOf(b) && LastWrite(rest, KeyOf(x)).None?;
    }
  }

  /** What a batch write leaves, row by row, on a well-formed store: every
      existing row keeps its place, id and key; a row whose key the batch does
      not name is untouched; a row whose key it names holds the batch's last
      row for that key, under the stored id. */
  lemma PutRows(s: Store, batch: seq<Notification>)
    requires WellFormed(s)
    ensures var r := PutNotifications(s, batch);
      && (forall i :: 0 <= i < |s| ==> r[i].id == s[i].id && KeyOf(r[i]) == KeyOf(s[i]))
      && (forall i :: 0 <= i < |r| && KeyOf(r[i]) !in KeysOf(batch) ==> i < |s| && r[i] == s[i])
      && (forall i :: 0 <= i < |r| && KeyOf(r[i]) in KeysOf(batch) ==>
            LastWrite(batch, KeyOf(r[i])) == Some(r[i].(id := LastWrite(batch, KeyOf(r[i])).value.id)))
  {
    var r := PutNotifications(s, batch);
    forall i | 0 <= i < |s| ensures r[i].id == s[i].id && KeyOf(r[i]) == KeyOf(s[i]) {
      PutKeepsPlace(s, batch, i);
    }
    forall i | 0 <= i < |r| && KeyOf(r[i]) !in KeysOf(batch) ensures i < |s| && r[i] == s[i] {
      PutLeavesOther(s, batch, i);
    }
    forall i | 0 <= i < |r| && KeyOf(r[i]) in KeysOf(batch)
      ensures LastWrite(batch, KeyOf(r[i])) == Some(r[i].(id := LastWrite(batch, KeyOf(r[i])).value.id))
    {
      PutLastWins(s, batch, i);
    }
  }

  /** On a well-formed store, a row whose key a batch write names is one of
      the batch's rows, under the stored id. */
  lemma PutWrittenRow(s: Store, batch: seq<Notification>, i: nat)
    requires WellFormed(s)
    requires i < |PutNotifications(s, batch)| && KeyOf(PutNotifications(s, batch)[i]) in KeysOf(batch)
    ensures var x := PutNotifications(s, batch)[i];
      exists j :: 0 <= j < |batch| && x == batch[j].(id := x.id)
  {
    var x := PutNotifications(s, batch)[i];
    PutLastWins(s, batch, i);
    var w := LastWrite(batch, KeyOf(x)).value;
    var j :| 0 <= j < |batch| && batch[j] == w;
    assert x == batch[j].(id := x.id);
  }

  /** Writing the same batch a second time leaves one row as the first write did. */
  lemma PutAgainSameRow(s: Store, batch: seq<Notification>, i: nat)
    requires WellFormed(s)
    requires i < |PutNotifications(s, batch)| && i < |PutNotifications(PutNotifications(s, batch), batch)|
    ensures PutNotifications(PutNotifications(s, batch), batch)[i] == PutNotifications(s, batch)[i]
  {
    var once := PutNotifications(s, batch);
    var x := once[i];
    PutWellFormed(s, batch);
    PutKeepsPlace(once, batch, i);
    if KeyOf(x) in KeysOf(batch) {
      PutLastWins(s, batch, i);
      PutLastWins(once, batch, i);
    } else {
      PutLeavesOther(once, batch, i);
    }
  }

  /** Writing the same batch a second time leaves the store exactly as the first write did. */
  lemma PutAgainAddsNothing(s: Store, batch: seq<Notification>)
    requires WellFormed(s)
    ensures var once := PutNotifications(s, batch);
      PutNotifications(once, batch) == once
  {
    var once := PutNotifications(s, batch);
    var twice := PutNotifications(once, batch);
    PutWellFormed(s, batch);
    PutWellFormed(once, batch);
    KeysOfDistinctCount(once);
    KeysOfDistinctCount(twice);
    assert KeysOf(twice) == KeysOf(once);
    forall i | 0 <= i < |once| ensures twice[i] == once[i] {
      PutAgainSameRow(s, batch, i);
    }
  }

  lemma {:induction false} SelectWellFormed(s: Store, sc: Scope)
    requires WellFormed(s)
    ensures WellFormed(Select(s, sc))
  {
    if s != [] {
      SelectWellFormed(s[1..], sc);
      ConsWellFormed(s, Select(s[1..], sc));
    }
  }

  lemma {:induction false} RemoveWellFormed(s: Store, sc: Scope)
    requires WellFormed(s)
    ensures WellFormed(Remove(s, sc))
  {
    if s != [] {
      RemoveWellFormed(s[1..], sc);
      ConsWellFormed(s, Remove(s[1..], sc));
    }
  }

  lemma {:induction false} RemoveKeysWellFormed(s: Store, keys: set<NaturalKey>)
    requires WellFormed(s)
    ensures WellFormed(RemoveKeys(s, keys))
  {
    if s != [] {
      RemoveKeysWellFormed(s[1..], keys);
      ConsWellFormed(s, RemoveKeys(s[1..], keys));
    }
  }

  /** Putting the head of a well-formed store in front of rows taken from its tail. */
  lemma ConsWellFormed(s: Store, tail: Store)
    requires s != [] && WellFormed(s) && WellFormed(tail)
    requires forall n :: n in tail ==> n in s[1..]
    ensures WellFormed([s[0]] + tail)
  {
    forall j | 0 <= j < |tail| ensures tail[j].id != s[0].id && KeyOf(tail[j]) != KeyOf(s[0]) {
      assert tail[j] in s[1..];
      var k :| 0 <= k < |s[1..]| && s[1..][k] == tail[j];
      assert s[k + 1] == tail[j];
    }
  }

  // ---------------------------------------------------------------------
  // Isolation: rows outside the written keys' scope are untouched

  lemma {:induction false} SelectUpdateOutside(s: Store, i: nat, x: Notification, sc: Scope)
    requires i < |s| && !InScope(s[i], sc) && !InScope(x, sc)
    ensures Select(s[i := x], sc) == Select(s, sc)
  {
    if i == 0 {
      assert s[i := x][1..] == s[1..];
    } else {
      assert s[i := x][1..] == s[1..][i - 1 := x];
      SelectUpdateOutside(s[1..], i - 1, x, sc);
    }
  }

  lemma {:induction false} SelectAppendOutside(s: Store, x: Notification, sc: Scope)
    requires !InScope(x, sc)
    ensures Select(s + [x], sc) == Select(s, sc)
  {
    if s == [] {
      assert Select([x], sc) == Select([x][1..], sc);
    } else {
      assert (s + [x])[1..] == s[1..] + [x];
      SelectAppendOutside(s[1..], x, sc);
    }
  }

  lemma {:induction false} SelectAppendInside(s: Store, x: Notification, sc: Scope)
    requires InScope(x, sc)
    ensures Select(s + [x], sc) == Select(s, sc) + [x]
  {
    if s == [] {
      assert Select([x], sc) == [x] + Select([x][1..], sc);
    } else {
      assert (s + [x])[1..] == s[1..] + [x];
      SelectAppendInside(s[1..], x, sc);
    }
  }

  lemma UpsertIsolation(s: Store, n: Notification, sc: Scope)
    requires !InScope(n, sc)
    ensures Select(Upsert(s, n), sc) == Select(s, sc)
  {
    match FindKey(s, KeyOf(n))
    case Some(i) =>
      ScopeFollowsKey(s[i], n, sc);
      SelectUpdateOutside(s, i, n.(id := s[i].id), sc);
    case None =>
      SelectAppendOutside(s, n.(id := NextId(s)), sc);
  }

  /** A batch none of whose rows falls in `sc` leaves the rows of `sc` exactly as they were. */
  lemma {:induction false} PutIsolation(s: Store, batch: seq<Notification>, sc: Scope)
    requires forall i :: 0 <= i < |batch| ==> !InScope(batch[i], sc)
    ensures Select(PutNotifications(s, batch), sc) == Select(s, sc)
    decreases |batch|
  {
    if batch != [] {
      UpsertIsolation(s, batch[0], sc);
      PutIsolation(Upsert(s, batch[0]), batch[1..], sc);
    }
  }

  /** Two scopes no row can belong to at once. */
  predicate Disjoint(a: Scope, b: Scope) {
    a.customerId != b.customerId
    || (a.Check? && b.Check? && a.checkId != b.checkId)
  }

  /** Removing one scope leaves a disjoint scope's rows exactly as they were. */
  lemma {:induction false} RemoveIsolation(s: Store, gone: Scope, kept: Scope)
    requires Disjoint(gone, kept)
    ensures Select(Remove(s, gone), kept) == Select(s, kept)
  {
    if s != [] {
      RemoveIsolation(s[1..], gone, kept);
    }
  }

  /** After removing a scope nothing in it is left. */
  lemma RemoveClears(s: Store, sc: Scope)
    ensures Select(Remove(s, sc), sc) == []
  {
  }

  // ---------------------------------------------------------------------
  // Deleting by key what was read from a scope

  lemma {:induction false} RemoveKeysAgree(s: Store, keys: set<NaturalKey>, sc: Scope)
    requires forall i :: 0 <= i < |s| ==> (KeyOf(s[i]) in keys <==> InScope(s[i], sc))
    ensures RemoveKeys(s, keys) == Remove(s, sc)
  {
    if s != [] {
      assert KeyOf(s[0]) in keys <==> InScope(s[0], sc);
      forall i | 0 <= i < |s[1..]| ensures KeyOf(s[1..][i]) in keys <==> InScope(s[1..][i], sc) {
        assert s[1..][i] == s[i + 1];
      }
      RemoveKeysAgree(s[1..], keys, sc);
    }
  }

  /** Deleting, by natural key, the rows a scoped read returned removes exactly that scope. */
  lemma DeleteWhatWasRead(s: Store, sc: Scope)
    ensures RemoveKeys(s, KeysOf(Select(s, sc))) == Remove(s, sc)
  {
    var read := Select(s, sc);
    forall i | 0 <= i < |s| ensures KeyOf(s[i]) in KeysOf(read) <==> InScope(s[i], sc) {
      if InScope(s[i], sc) {
        assert s[i] in read;
        var j :| 0 <= j < |read| && read[j] == s[i];
      }
      if KeyOf(s[i]) in KeysOf(read) {
        var j :| 0 <= j < |read| && KeyOf(read[j]) == KeyOf(s[i]);
        assert read[j] in read;
        ScopeFollowsKey(read[j], s[i], sc);
      }
    }
    RemoveKeysAgree(s, KeysOf(read), sc);
  }

  /** The keys read back from one check are the store's keys for that check. */
  lemma KeysOfCheck(s: Store, c: string, k: string)
    ensures KeysOf(Select(s, Check(c, k)))
         == set key | key in KeysOf(s) && key.customerId == c && key.checkId == k
  {
    var read := Select(s, Check(c, k));
    forall key | key in KeysOf(read)
      ensures key in KeysOf(s) && key.customerId == c && key.checkId == k
    {
      var j :| 0 <= j < |read| && KeyOf(read[j]) == key;
      assert read[j] in read;
      var i :| 0 <= i < |s| && s[i] == read[j];
    }
    forall key | key in KeysOf(s) && key.customerId == c && key.checkId == k
      ensures key in KeysOf(read)
    {
      var i :| 0 <= i < |s| && KeyOf(s[i]) == key;
      assert s[i] in read;
      var j :| 0 <= j < |read| && read[j] == s[i];
    }
  }

  // ---------------------------------------------------------------------
  // Writing step by step

  /** A row with a new natural key is appended under the next id. */
  lemma UpsertFresh(s: Store, n: Notification)
    requires KeyOf(n) !in KeysOf(s)
    ensures Upsert(s, n) == s + [n.(id := NextId(s))]
  {
  }

  lemma NextIdAppend(s: Store, x: Notification)
    ensures NextId(s + [x]) == if x.id < NextId(s) then NextId(s) else x.id + 1
  {
    assert (s + [x])[..|s|] == s;
  }

  /** Writing a batch is writing its two halves one after the other. */
  lemma {:induction false} PutSplit(s: Store, a: seq<Notification>, b: seq<Notification>)
    ensures PutNotifications(s, a + b) == PutNotifications(PutNotifications(s, a), b)
    decreases |a|
  {
    if a != [] {
      assert (a + b)[0] == a[0] && (a + b)[1..] == a[1..] + b;
      PutSplit(Upsert(s, a[0]), a[1..], b);
    } else {
      assert a + b == b;
    }
  }

  /** Selecting a scope every row is in returns the whole store. */
  lemma {:induction false} SelectAll(s: Store, sc: Scope)
    requires forall i :: 0 <= i < |s| ==> InScope(s[i], sc)
    ensures Select(s, sc) == s
  {
    if s != [] {
      SelectAll(s[1..], sc);
    }
  }

  /** A single-row write of a new natural key appends it under the next id. */
  lemma PutOneFresh(s: Store, n: Notification)
    requires KeyOf(n) !in KeysOf(s)
    ensures PutNotifications(s, [n]) == s + [n.(id := NextId(s))]
    ensures KeysOf(PutNotifications(s, [n])) == KeysOf(s) + {KeyOf(n)}
  {
    assert [n][1..] == [];
    UpsertFresh(s, n);
  }

  /** A scope no row is in selects nothing and removes nothing. */
  lemma {:induction false} NoneInScope(s: Store, sc: Scope)
    requires forall i :: 0 <= i < |s| ==> !InScope(s[i], sc)
    ensures Select(s, sc) == [] && Remove(s, sc) == s
  {
    if s != [] {
      var rest := s[1..];
      assert !InScope(s[0], sc);
      assert forall i :: 0 <= i < |rest| ==> rest[i] == s[i + 1];
      NoneInScope(rest, sc);
      assert s == [s[0]] + rest;
    }
  }

  /** Clearing a scope from rows followed by rows all in it is clearing it from the first part. */
  lemma {:induction false} RemoveAppendInside(s: Store, x: Store, sc: Scope)
    requires forall i :: 0 <= i < |x| ==> InScope(x[i], sc)
    ensures Remove(s + x, sc) == Remove(s, sc)
    decreases |s| + |x|
  {
    if s == [] {
      assert s + x == x;
      if x != [] {
        assert forall i :: 0 <= i < |x[1..]| ==> x[1..][i] == x[i + 1];
        RemoveAppendInside([], x[1..], sc);
        assert [] + x[1..] == x[1..];
      }
    } else {
      assert (s + x)[0] == s[0] && (s + x)[1..] == s[1..] + x;
      RemoveAppendInside(s[1..], x, sc);
    }
  }

  /** A write of rows of one scope leaves a row outside that scope as it was. */
  lemma PutKeepsOutside(s: Store, batch: seq<Notification>, sc: Scope, i: nat)
    requires i < |s| && !InScope(s[i], sc)
    requires forall j :: 0 <= j < |batch| ==> InScope(batch[j], sc)
    ensures i < |PutNotifications(s, batch)| && PutNotifications(s, batch)[i] == s[i]
  {
    var r := PutNotifications(s, batch);
    PutKeepsPlace(s, batch, i);
    if KeyOf(r[i]) in KeysOf(batch) {
      assert false;
    }
    PutLeavesOther(s, batch, i);
  }

  /** A row a write appends carries one of the batch's keys, so it lies in any
      scope every batch row lies in. */
  lemma PutAppendedInScope(s: Store, batch: seq<Notification>, sc: Scope, i: nat)
    requires |s| <= i < |PutNotifications(s, batch)|
    requires forall j :: 0 <= j < |batch| ==> InScope(batch[j], sc)
    ensures InScope(PutNotifications(s, batch)[i], sc)
  {
    var r := PutNotifications(s, batch);
    if KeyOf(r[i]) !in KeysOf(batch) {
      PutLeavesOther(s, batch, i);
      assert false;
    }
    var j :| 0 <= j < |batch| && KeyOf(batch[j]) == KeyOf(r[i]);
    ScopeFollowsKey(batch[j], r[i], sc);
  }

  /** Writing rows of one scope into a store with none of its rows only appends:
      clearing the scope afterwards gives back the store. */
  lemma PutIntoEmptyScope(s: Store, batch: seq<Notification>, sc: Scope)
    requires forall i :: 0 <= i < |s| ==> !InScope(s[i], sc)
    requires forall i :: 0 <= i < |batch| ==> InScope(batch[i], sc)
    ensures Remove(PutNotifications(s, batch), sc) == s
  {
    var r := PutNotifications(s, batch);
    forall i | 0 <= i < |s| ensures r[i] == s[i] {
      PutKeepsOutside(s, batch, sc, i);
    }
    forall i | |s| <= i < |r| ensures InScope(r[i], sc) {
      PutAppendedInScope(s, batch, sc, i);
    }
    RemoveExtension(r, s, sc);
  }

  /** A store that extends `s`, a store with no row in a scope, by rows all in
      that scope gives back `s` when the scope is cleared. */
  lemma RemoveExtension(r: Store, s: Store, sc: Scope)
    requires |s| <= |r|
    requires forall i :: 0 <= i < |s| ==> r[i] == s[i] && !InScope(s[i], sc)
    requires forall i :: |s| <= i < |r| ==> InScope(r[i], sc)
    ensures Remove(r, sc) == s
  {
    var tail := r[|s|..];
    assert r == s + tail;
    assert forall i :: 0 <= i < |tail| ==> tail[i] == r[|s| + i];
    RemoveAppendInside(s, tail, sc);
    NoneInScope(s, sc);
  }

  /** Removing keys no row carries leaves the store as it is. */
  lemma {:induction false} RemoveKeysNone(s: Store, keys: set<NaturalKey>)
    requires forall i :: 0 <= i < |s| ==> KeyOf(s[i]) !in keys
    ensures RemoveKeys(s, keys) == s
  {
    if s != [] {
      assert KeyOf(s[0]) !in keys;
      RemoveKeysNone(s[1..], keys);
    }
  }
}

=== FILE: url_escape.dfy ===
/** Query-component escaping as Go's net/url does it (QueryEscape), used to
    embed the raw-results URL into a link. Go strings are byte strings, so the
    input is a byte sequence; the output is plain ASCII. */
module UrlEscape {
  import opened Obj

  /** Bytes left as they are: ASCII letters, digits and - _ . ~ */
  predicate Unreserved(b: byte) {
    || (65 <= b <= 90)
    || (97 <= b <= 122)
    || (48 <= b <= 57)
    || b == 45 || b == 95 || b == 46 || b == 126
  }

  /** Upper-case hexadecimal digit. */
  function HexDigit(d: nat): (c: char)
    requires d < 16
    ensures HexValue(c) == Some(d)
    ensures ('0' <= c <= '9') || ('A' <= c <= 'F')
  {
    if d < 10 then ('0' as int + d) as char else ('A' as int + d - 10) as char
  }

  /** The value of a hexadecimal digit of either case. */
  function HexValue(c: char): (v: Option<nat>)
    ensures v.Some? ==> v.value < 16
  {
    if '0' <= c <= '9' then Some(c as int - '0' as int)
    else if 'A' <= c <= 'F' then Some(c as int - 'A' as int + 10)
    else if 'a' <= c <= 'f' then Some(c as int - 'a' as int + 10)
    else None
  }

  /** One byte's escape: one to three safe characters that unescape to the byte. */
  function EscapeByte(b: byte): (e: string)
    ensures 1 <= |e| <= 3
    ensures forall i :: 0 <= i < |e| ==> QuerySafe(e[i])
    ensures QueryUnescape(e) == Some([b])
    // unreserved bytes stay, a space becomes '+', anything else is %XX in upper-case hex
    ensures Unreserved(b) ==> e == [b as char]
    ensures b == 32 ==> e == "+"
    ensures !Unreserved(b) && b != 32 ==>
      |e| == 3 && e[0] == '%' && HexValue(e[1]) == Some(b / 16) && HexValue(e[2]) == Some(b % 16)
      && forall i :: 1 <= i < 3 ==> ('0' <= e[i] <= '9') || ('A' <= e[i] <= 'F')
  {
    if Unreserved(b) then
      var e := [b as char];
      assert e[0] as int == b && e[1..] == [];
      assert QueryUnescape(e) == Prepend(b, QueryUnescape([]));
      assert QueryUnescape([]) == Some([]) && [b] + [] == [b];
      e
    else if b == 32 then
      var e := "+";
      assert e[1..] == [] && QueryUnescape(e) == Prepend(32, QueryUnescape([]));
      assert QueryUnescape([]) == Some([]) && [b] + [] == [b];
      e
    else
      var e := ['%', HexDigit(b / 16), HexDigit(b % 16)];
      assert e[3..] == [] && QueryUnescape(e) == Prepend(b / 16 * 16 + b % 16, QueryUnescape([]));
      assert QueryUnescape([]) == Some([]) && [b] + [] == [b];
      e
  }

  /** The characters an escaped query component can contain. */
  predicate QuerySafe(c: char) {
    (c as int < 256 && Unreserved(c as int)) || c == '+' || c == '%'
  }

  /** url.QueryEscape: the result holds no separator ('&', '=', '?', '#', space),
      so it stays a single query value, and each byte takes one to three characters. */
  function QueryEscape(bs: seq<byte>): (r: string)
    ensures forall i :: 0 <= i < |r| ==> QuerySafe(r[i])
    ensures |bs| <= |r| <= 3 * |bs|
  {
    if bs == [] then ""
    else EscapeByte(bs[0]) + QueryEscape(bs[1..])
  }

  function Prepend(b: byte, rest: Option<seq<byte>>): Option<seq<byte>> {
    match rest
    case None => None
    case Some(bs) => Some([b] + bs)
  }

  /** url.QueryUnescape: '+' is a space, "%XX" a byte, a malformed escape an
      error. Each byte comes from one to three characters. */
  function QueryUnescape(s: string): (r: Option<seq<byte>>)
    ensures r.Some? ==> |r.value| <= |s| <= 3 * |r.value|
    ensures (exists i :: 0 <= i < |s| && s[i] as int >= 256) ==> r.None?
    decreases |s|
  {
    if s == [] then Some([])
    else if s[0] == '%' then
      if |s| < 3 then None
      else match (HexValue(s[1]), HexValue(s[2]))
        case (Some(hi), Some(lo)) => Prepend(hi * 16 + lo, QueryUnescape(s[3..]))
        case _ => None
    else if s[0] == '+' then Prepend(32, QueryUnescape(s[1..]))
    else if s[0] as int < 256 then Prepend(s[0] as int, QueryUnescape(s[1..]))
    else None
  }

  lemma UnescapeEscapedByte(b: byte, rest: string)
    ensures QueryUnescape(EscapeByte(b) + rest) == Prepend(b, QueryUnescape(rest))
  {
    var s := EscapeByte(b) + rest;
    if Unreserved(b) {
      assert s[0] == b as char && s[1..] == rest;
    } else if b == 32 {
      assert s[0] == '+' && s[1..] == rest;
    } else {
      assert s[0] == '%' && s[1] == HexDigit(b / 16) && s[2] == HexDigit(b % 16) && s[3..] == rest;
    }
  }

  /** Unescaping undoes escaping: the raw-results URL survives the link intact. */
  lemma {:induction false} QueryRoundTrip(bs: seq<byte>)
    ensures QueryUnescape(QueryEscape(bs)) == Some(bs)
  {
    if bs != [] {
      UnescapeEscapedByte(bs[0], QueryEscape(bs[1..]));
      QueryRoundTrip(bs[1..]);
      assert [bs[0]] + bs[1..] == bs;
    }
  }

  /** Escaping is injective: distinct URLs give distinct links. */
  lemma EscapeInjective(a: seq<byte>, b: seq<byte>)
    requires QueryEscape(a) == QueryEscape(b)
    ensures a == b
  {
    QueryRoundTrip(a);
    QueryRoundTrip(b);
  }

  /** Strings made only of unreserved bytes pass through unchanged. */
  lemma {:induction false} EscapeUnreservedIdentity(bs: seq<byte>)
    requires forall i :: 0 <= i < |bs| ==> Unreserved(bs[i])
    ensures |QueryEscape(bs)| == |bs|
    ensures forall i :: 0 <= i < |bs| ==> QueryEscape(bs)[i] == bs[i] as char
  {
    if bs != [] {
      EscapeUnreservedIdentity(bs[1..]);
      var r := QueryEscape(bs);
      assert r == [bs[0] as char] + QueryEscape(bs[1..]);
      forall i | 0 <= i < |bs| ensures r[i] == bs[i] as char {
        if i > 0 {
          assert r[i] == QueryEscape(bs[1..])[i - 1];
          assert bs[1..][i - 1] == bs[i];
        }
      }
    }
  }
}
